=== FILE: README.md ===
# Vending machine purchase engine in Dafny

This project models the purchase engine of a vending machine service. `VendingMachine`
holds four pieces of state:

- the stock of each item kind;
- the coin vault (`change`);
- the coins deposited in the current transaction;
- an optional pending item.

It also covers the two enums the engine reads: `Denomination`, the six coins and their
ascending order, and `ItemType`, the three item kinds and their fixed prices.

Each public operation is a pure function from one `Engine.Machine` to the next. Operations
that can fail return a `Step`: the result or the error, plus the state the source leaves
behind in either case.

Coin and item ledgers are `map`s. An absent key reads as 0 (`Ledger.Get`, the source's
`getOrDefault`). Money is unbounded `int`, counted in cents.

The model follows the code as written:

- `buyItem` merges the coins into the transaction and the vault, and replaces the pending
  item, before it checks stock or funds.
- The stock check is `== 0`.
- The change-maker is recursive. It scans the denominations in ascending order and takes
  the first coin worth at most the whole amount owed. It records the vault's remaining
  count + 1 as that coin's breakdown count. It never puts back coins it has drawn.
- A successful sale leaves the transaction and the pending item in place.

Three of these behaviours are defects that show on concrete inputs. They are listed under
"## Findings".

Purchase completion takes a `Variant`:

- `AsWritten` is the code line for line.
- `Intended` keeps every check the same, but uses the corrected change-maker
  (`Change.MakeChange`) and closes the transaction after a sale.

Everything else is shared between the two variants.

A largest-first change-maker with rollback, and a transaction cleared on every sale, would
behave differently. The code does none of these, and the model follows the code.
`Intended` repairs the defects but keeps the ascending order.

Modules, one file each:

- `Results`: the option and result types.
- `Denominations`: face values, and `ordered()` as a sort of the declared values.
- `Items`: the item kinds and their prices.
- `Ledger`: merge and withdraw on count maps.
- `Money`: `calculateTotal` and its algebra.
- `Change`: both change-makers.
- `Engine`: the machine and its operations.
- `Findings`: the concrete inputs behind each finding.
- `Scenarios`: the unit-test sequences replayed on the model.

## Model

| member | source | states |
|---|---|---|
| Denominations.Cents | src/main/java/com/vendingmachine/domain/Denomination.java:10-21 | every coin is worth 1 to 100 cents; only ONE_CENT is worth 1 and only ONE_DOLLAR is worth 100 |
| Denominations.ValuesListsEachOnce | src/main/java/com/vendingmachine/domain/Denomination.java:10-15 | there are six denominations and each is declared exactly once |
| Denominations.FaceValues | src/main/java/com/vendingmachine/domain/Denomination.java:10-15 | in declaration order the face values are 1, 5, 10, 25, 50, 100 |
| Denominations.CentsInjective | src/main/java/com/vendingmachine/domain/Denomination.java:10-17 | two coins have equal values exactly when they are the same coin, so ordering by value is a strict total order |
| Denominations.ValuesAscending | src/main/java/com/vendingmachine/domain/Denomination.java:10-15 | the declaration order lists every coin once, strictly ascending in value |
| Denominations.Insert | src/main/java/com/vendingmachine/domain/Denomination.java:25 | inserting into a value-sorted list keeps it sorted and adds exactly that one coin |
| Denominations.SortByCents | src/main/java/com/vendingmachine/domain/Denomination.java:24-26 | the `sorted(comparing(totalCents))` step yields a value-sorted permutation of its input |
| Denominations.Ordered | src/main/java/com/vendingmachine/domain/Denomination.java:23-27 | `ordered()` has six entries, holds each coin exactly once, is strictly increasing in value, and starts with ONE_CENT and ends with ONE_DOLLAR |
| Denominations.OrderedIsSortedValues | src/main/java/com/vendingmachine/domain/Denomination.java:23-27 | `ordered()` is exactly `values()` sorted by face value |
| Denominations.Rank | src/main/java/com/vendingmachine/domain/Denomination.java:10-15 | the declaration position of a coin: `values()` holds that coin at that index |
| Denominations.CentsFollowRank | src/main/java/com/vendingmachine/domain/Denomination.java:10-15 | a coin is worth less than another exactly when it is declared earlier |
| Denominations.NeighboursIncrease | src/main/java/com/vendingmachine/domain/Denomination.java:24-26 | in any value-sorted permutation of the declared coins, adjacent entries strictly increase in declaration rank |
| Denominations.OrderedIsDeclarationOrder | src/main/java/com/vendingmachine/domain/Denomination.java:23-27 | a value-sorted permutation of the declared coins is the declaration order itself, so the sort result is unique |
| Items.Price | src/main/java/com/vendingmachine/domain/ItemType.java:5-13 | each kind has one fixed price: positive and a multiple of 25 cents |
| Items.KindsListsEachOnce | src/main/java/com/vendingmachine/domain/ItemType.java:5-7 | there are exactly three item kinds, each declared once |
| Items.CatalogPrices | src/main/java/com/vendingmachine/domain/ItemType.java:5-7 | CRISPS costs 50, COCA_COLA 150 and MARS_BAR 75 cents |
| Ledger.Merge | src/main/java/com/vendingmachine/service/VendingMachine.java:89-94 | `putIfAbsent` then add: each count grows by its delta, an absent key starts from 0, other keys are unchanged, and non-negative ledgers stay non-negative |
| Ledger.Withdraw | src/main/java/com/vendingmachine/service/VendingMachine.java:81-83 | subtracting the transaction from the vault lowers each count by its delta and leaves every other key unchanged; every withdrawn key must already be in the vault |
| Ledger.WithdrawUndoesMerge | src/main/java/com/vendingmachine/service/VendingMachine.java:70-87 | withdrawing the coins just merged in restores every count |
| Ledger.MergeIntoEmpty | src/main/java/com/vendingmachine/service/VendingMachine.java:71-74 | depositing into an empty transaction records exactly the deposited coins |
| Money.Total | src/main/java/com/vendingmachine/service/VendingMachine.java:108-112 | `calculateTotal`: face value × count summed over the six denominations, an absent denomination read as 0; a ledger with no negative count is worth at least 0 |
| Money.TotalIsEntrySum | src/main/java/com/vendingmachine/service/VendingMachine.java:108-112 | that sum equals the source's own sum of face value × count over the map's entries, taken in any order |
| Money.TotalEmpty | src/main/java/com/vendingmachine/service/VendingMachine.java:108-112 | a ledger whose counts are all 0 is worth nothing |
| Money.TotalMerge | src/main/java/com/vendingmachine/service/VendingMachine.java:70-76 | depositing coins raises a ledger's value by exactly the coins' value |
| Money.TotalAgree | src/main/java/com/vendingmachine/service/VendingMachine.java:108-112 | the value depends only on the counts, not on which zero entries are recorded |
| Money.TotalSplit | src/main/java/com/vendingmachine/service/VendingMachine.java:108-112 | splitting a ledger into two parts splits its value |
| Money.TotalWithdraw | src/main/java/com/vendingmachine/service/VendingMachine.java:81-83 | withdrawing coins lowers the value by exactly their value |
| Money.TotalUpdate | src/main/java/com/vendingmachine/service/VendingMachine.java:108-112 | adding k coins of one denomination adds k times its face value |
| Money.TotalSingle | src/main/java/com/vendingmachine/service/VendingMachine.java:108-112 | n coins of a single denomination are worth n times its face value |
| Money.TakeOneCoin | src/main/java/com/vendingmachine/service/VendingMachine.java:124-127 | drawing one coin from a slot holding some lowers the vault's coin count by one, which is the recursion's decreasing measure |
| Change.Eligible | src/main/java/com/vendingmachine/service/VendingMachine.java:123-124 | the two `filter`s: a denomination passes only if the vault holds such a coin and its face value, always positive, is at most the amount owed |
| Change.FirstFit | src/main/java/com/vendingmachine/service/VendingMachine.java:122-126 | `filter`, `filter`, `findFirst`: the returned index holds an eligible coin with none eligible before it, and none is returned exactly when no listed coin is eligible |
| Change.Pick | src/main/java/com/vendingmachine/service/VendingMachine.java:122-126 | the coin drawn next is eligible (worth at most the amount owed, and held by the vault) and is the cheapest eligible coin; there is none exactly when no coin is eligible |
| Change.StreamPicks | src/main/java/com/vendingmachine/service/VendingMachine.java:122-126 | the source's first-fit scan over `ordered()` selects the same coin as `Pick` |
| Change.PickSmallest | src/main/java/com/vendingmachine/service/VendingMachine.java:122-126 | an eligible coin with no cheaper eligible coin is the one drawn |
| Change.CalculateChange | src/main/java/com/vendingmachine/service/VendingMachine.java:118-131 | returns only when the breakdown is worth the amount owed, and immediately (vault untouched) if it already is; when it is not and no coin is eligible, it runs short at once with the vault untouched (`orElseThrow`); on a shortfall no coin is left eligible; vault keys are kept; no count rises; each drawn slot stays at or above 0 and holds a coin worth at most the amount owed |
| Change.CalculateChangeStep | src/main/java/com/vendingmachine/service/VendingMachine.java:122-130 | while the breakdown is not yet worth the amount owed, one recursive step draws the picked coin from the vault and writes the vault's former count as the breakdown's count for that coin, and the result is the recursion on those two ledgers |
| Change.DrawRemaining | src/main/java/com/vendingmachine/service/VendingMachine.java:118-131 | corrected loop: on success the breakdown grows by exactly the amount remaining; every coin gained left the vault and nothing else moved; each coin gained is worth at most the remainder; counts only fall, and a slot drawn from never goes below 0 |
| Change.MakeChange | src/main/java/com/vendingmachine/service/VendingMachine.java:114-131 | corrected `calculateChange(changeOwed)`: on success the change is worth the amount owed, has no negative count, uses only coins worth at most that amount, and vault plus change equals the old vault; on a shortfall the vault is exactly as found; owing 0 pays nothing |
| Engine.Init | src/main/java/com/vendingmachine/service/VendingMachine.java:18-26 | the constructor keeps the given stock and vault, opens an empty transaction with no pending item, and starts consistent |
| Engine.AvailableItems | src/main/java/com/vendingmachine/service/VendingMachine.java:28-33 | a kind is on offer exactly when its stock is positive |
| Engine.GetPrice | src/main/java/com/vendingmachine/service/VendingMachine.java:35-37 | the catalogue price, positive, whatever the machine holds |
| Engine.LoadCoins | src/main/java/com/vendingmachine/service/VendingMachine.java:70-76 | the coins are added pointwise to both the transaction and the vault, raising each ledger's value by the deposit; stock and the pending item are unchanged |
| Engine.LoadChange | src/main/java/com/vendingmachine/service/VendingMachine.java:89-94 | adds coins pointwise to the vault only, leaving other keys, the transaction, stock and the pending item unchanged |
| Engine.LoadItems | src/main/java/com/vendingmachine/service/VendingMachine.java:96-101 | adds stock pointwise, treating an absent kind as 0; other kinds, the vault and the transaction are unchanged |
| Engine.ReturnCoins | src/main/java/com/vendingmachine/service/VendingMachine.java:78-87 | returns exactly the transaction's coins, takes them out of the vault (lowering its value by theirs), clears the transaction and the pending item, and leaves stock alone |
| Engine.Release | src/main/java/com/vendingmachine/service/VendingMachine.java:103-106 | one unit of the bought kind leaves the stock; other kinds are untouched |
| Engine.Settle | src/main/java/com/vendingmachine/service/VendingMachine.java:114-116 | the change paid out is worth the amount owed; owing 0 pays nothing and keeps the vault; the intended change-maker conserves coins and leaves the vault unchanged on a shortfall |
| Engine.Sold | src/main/java/com/vendingmachine/service/VendingMachine.java:59-61 | a sale releases one unit and keeps the change-maker's vault; as written the transaction and pending item survive, and the intended variant clears them |
| Engine.Purchase | src/main/java/com/vendingmachine/service/VendingMachine.java:45-63 | checks run in the source's order: no pending item, stock 0, funds short by price − paid, vault worth less than the change; each early failure leaves the machine unchanged; a sale lowers only the bought kind's stock by 1 and returns change worth paid − price |
| Engine.Complete | src/main/java/com/vendingmachine/service/VendingMachine.java:59-61 | the change-maker's outcome decides the sale: either InsufficientChange with stock, transaction and pending item untouched (the whole machine untouched under the intended variant), or change worth exactly the amount owed with the bought kind's stock down by 1 |
| Engine.BuyItem | src/main/java/com/vendingmachine/service/VendingMachine.java:39-62 | fails with ItemNotAvailable exactly when the stock is 0, and with InsufficientFunds exactly when stocked and the deposit is below the price; when the vault, counted after the deposit is loaded into it, is worth less than the change owed, it fails with InsufficientChange and the machine is exactly the loaded one; on failure the coins stay in the transaction, and in the vault unless the change-maker itself ran short as written; on success the change is worth deposit − price |
| Engine.AddCoins | src/main/java/com/vendingmachine/service/VendingMachine.java:65-68 | with a pending item, the same as buying it again with the extra coins; without one, the coins are still loaded and the call fails |
| Engine.DepositThenReturn | src/main/java/com/vendingmachine/service/VendingMachine.java:70-87 | a deposit followed by `returnCoins` gives back exactly the deposit and restores every vault count and the vault's value |
| Engine.FailedPurchaseCancels | src/main/java/com/vendingmachine/service/VendingMachine.java:39-87 | a purchase from a fresh transaction that fails with ItemNotAvailable or InsufficientFunds (or with any error under the intended variant) can be cancelled: the deposit comes back, and vault and stock are as before |
| Engine.FreshDepositPassesVaultCheck | src/main/java/com/vendingmachine/service/VendingMachine.java:54-57 | from a fresh transaction the vault check before the change-maker cannot fail, because the deposit is already in the vault; so an as-written InsufficientChange there comes from the change-maker |
| Engine.IntendedSaleKeepsPrice | src/main/java/com/vendingmachine/service/VendingMachine.java:54-61 | an intended sale from a fresh transaction grows the vault by exactly the price and returns deposit − price |
| Engine.PurchaseCompletes | src/main/java/com/vendingmachine/service/VendingMachine.java:45-59 | a purchase that passes every check reaches the change-maker with paid − price owed |
| Engine.PurchaseShort | src/main/java/com/vendingmachine/service/VendingMachine.java:54-59 | when the change-maker runs short, the purchase fails with InsufficientChange and the vault as the change-maker left it |
| Engine.PurchasePaid | src/main/java/com/vendingmachine/service/VendingMachine.java:59-61 | when the change-maker pays out, the sale completes with that change |
| Engine.RestockUndoesRelease | src/main/java/com/vendingmachine/service/VendingMachine.java:96-106 | loading back the one unit a sale released restores every kind's stock |
| Engine.FreshDeposit | src/main/java/com/vendingmachine/service/VendingMachine.java:39-41 | the first deposit into an empty machine puts exactly those coins in both the vault and the transaction |
| Findings.DrawTen | src/main/java/com/vendingmachine/service/VendingMachine.java:122-130 | owing 10 from tens only, one step draws a ten and records the vault's former count |
| Findings.TensPaid | src/main/java/com/vendingmachine/service/VendingMachine.java:119-121 | once the copied count reads 1, the breakdown is worth the 10 owed and is returned |
| Findings.TensDrained | src/main/java/com/vendingmachine/service/VendingMachine.java:118-131 | with n − 1 tens left and n recorded, the source keeps drawing until the vault holds none |
| Findings.FirstTen | src/main/java/com/vendingmachine/service/VendingMachine.java:127-129 | the first draw from n tens records n |
| Findings.CounterDrainsVault | src/main/java/com/vendingmachine/service/VendingMachine.java:127-129 | owing 10 from n tens, the source pays one ten but empties the vault; the corrected change-maker keeps n − 1 |
| Findings.CorrectedTen | src/main/java/com/vendingmachine/service/VendingMachine.java:127-129 | the corrected change-maker pays one ten and keeps n − 1 |
| Findings.OnePennyReportedAsTen | src/main/java/com/vendingmachine/service/VendingMachine.java:119-129 | owing 10 from ten ONE_CENT and one TEN_CENTS, the source draws one penny but returns {ONE_CENT:10}, so vault and change together hold more pennies than the vault did |
| Findings.SixTensForCrisps | src/test/java/com/vendingmachine/service/VendingMachineTest.java:96-101 | six tens for CRISPS return one ten under both variants; as written the vault is left with no tens, and the intended variant keeps five |
| Findings.SixTensSettle | src/main/java/com/vendingmachine/service/VendingMachine.java:114-131 | each change-maker's payout and leftover vault for 10 owed from six tens |
| Findings.QuarterDrawTen | src/main/java/com/vendingmachine/service/VendingMachine.java:122-130 | owing 15 beside a quarter, the source draws a ten (the quarter is worth too much) |
| Findings.QuarterOnlyShort | src/main/java/com/vendingmachine/service/VendingMachine.java:122-126 | with only the quarter left, nothing is eligible and the source fails |
| Findings.QuarterTensShort | src/main/java/com/vendingmachine/service/VendingMachine.java:118-131 | from a quarter and n tens, the source draws every ten and then fails |
| Findings.FirstQuarterTen | src/main/java/com/vendingmachine/service/VendingMachine.java:127-129 | the first draw towards 15 records the vault's count of tens |
| Findings.NoRollbackDrainsTens | src/main/java/com/vendingmachine/service/VendingMachine.java:126-127 | owing 15 from a quarter and n tens, the source fails with every ten drawn out; the corrected change-maker fails with the vault intact |
| Findings.CorrectedQuarterShort | src/main/java/com/vendingmachine/service/VendingMachine.java:126-127 | the corrected change-maker rolls back its draws on a shortfall |
| Findings.NoRollbackNegativeVault | src/main/java/com/vendingmachine/service/VendingMachine.java:54-87 | CRISPS paid with a quarter and four tens: as written, handing the deposit back drives the vault's ten count to −4; under the intended variant it empties the vault exactly |
| Findings.FirstCola | src/test/java/com/vendingmachine/service/VendingMachineTest.java:149-150 | the first COCA_COLA paid with a fifty and a dollar sells with no change; as written the transaction stays open, and the intended variant closes it |
| Findings.ChangeForSecondCola | src/main/java/com/vendingmachine/service/VendingMachine.java:118-131 | 150 owed from two fifties and two dollars: the source pays a fifty and a dollar and leaves the vault empty |
| Findings.SecondColaRefunded | src/test/java/com/vendingmachine/service/VendingMachineTest.java:149-151 | as written, the second COCA_COLA sells and returns change worth its full price |
| Findings.SecondColaCharged | src/test/java/com/vendingmachine/service/VendingMachineTest.java:149-151 | under the intended variant, the second COCA_COLA returns no change and the vault keeps both payments |
| Scenarios.StockedOnOffer | src/test/java/com/vendingmachine/service/VendingMachineTest.java:23-29 | a machine stocked with two COCA_COLA and one CRISPS offers exactly those two kinds |
| Scenarios.LoadedItemOnOffer | src/test/java/com/vendingmachine/service/VendingMachineTest.java:132-139 | loading one MARS_BAR puts all three kinds on offer |
| Scenarios.TenForCrisps | src/test/java/com/vendingmachine/service/VendingMachineTest.java:45-51 | one ten for CRISPS fails 40 cents short, with the ten deposited |
| Scenarios.ShortfallThenTopUp | src/test/java/com/vendingmachine/service/VendingMachineTest.java:55-66 | topping up with four tens completes the sale with no change |
| Scenarios.ShortfallThenReturn | src/test/java/com/vendingmachine/service/VendingMachineTest.java:70-81 | after the shortfall, `returnCoins` gives back the ten and leaves the vault empty |
| Scenarios.FiveTensForCrisps | src/test/java/com/vendingmachine/service/VendingMachineTest.java:105-111 | five tens pay for CRISPS exactly, with no change |
| Scenarios.ExactPaymentForCrisps | src/test/java/com/vendingmachine/service/VendingMachineTest.java:105-112 | after that sale only COCA_COLA is on offer |
| Scenarios.DollarOnlyShort | src/main/java/com/vendingmachine/service/VendingMachine.java:122-126 | a vault holding only a dollar cannot make 50 cents under either change-maker |
| Scenarios.DollarForCrisps | src/test/java/com/vendingmachine/service/VendingMachineTest.java:85-91 | a dollar for CRISPS into an empty vault fails with InsufficientChange and leaves the dollar deposited |
| Scenarios.DollarReturned | src/test/java/com/vendingmachine/service/VendingMachineTest.java:125 | `returnCoins` then gives the dollar back |
| Scenarios.FiftyLoaded | src/test/java/com/vendingmachine/service/VendingMachineTest.java:126 | loading a fifty as change puts it in the emptied vault |
| Scenarios.ReturnThenReload | src/test/java/com/vendingmachine/service/VendingMachineTest.java:122-126 | cancel then reload leaves a vault holding one fifty, with no transaction |
| Scenarios.FiftyPicked | src/main/java/com/vendingmachine/service/VendingMachine.java:122-126 | owing 50 from a fifty and a dollar, the fifty is drawn |
| Scenarios.FiftyCalculated | src/main/java/com/vendingmachine/service/VendingMachine.java:118-131 | the source pays that 50 with the fifty |
| Scenarios.FiftyDrawn | src/main/java/com/vendingmachine/service/VendingMachine.java:118-131 | the corrected loop pays it the same way |
| Scenarios.FiftyFromReloaded | src/main/java/com/vendingmachine/service/VendingMachine.java:114-116 | both change-makers pay that 50 with the fifty |
| Scenarios.ChangeAfterReload | src/test/java/com/vendingmachine/service/VendingMachineTest.java:116-127 | with the fifty loaded, the second dollar for CRISPS returns the fifty as change |
| Scenarios.FirstColaOnOffer | src/test/java/com/vendingmachine/service/VendingMachineTest.java:149-150 | after the first COCA_COLA both kinds are still on offer |
| Scenarios.OnlyCrispsOnOffer | src/main/java/com/vendingmachine/service/VendingMachine.java:28-33 | a machine whose only stock is one CRISPS offers only CRISPS |
| Scenarios.SecondColaOnOffer | src/test/java/com/vendingmachine/service/VendingMachineTest.java:151-152 | the second COCA_COLA sells and only CRISPS remains on offer |
| Scenarios.BuyAllColas | src/test/java/com/vendingmachine/service/VendingMachineTest.java:143-152 | the whole buy-every-cola sequence gives the offers the source's test expects, under both variants |

## Left out

- `VendingMachineController` and `Config` are not part of this model. They are HTTP routing and dependency wiring, with no purchase logic.
- The exception classes' messages are not modelled. Exceptions are the `Engine.Error` datatype, and `InsufficientFunds` carries the deficit.
- The missing pending item is modelled as `NoPendingPurchase`. In the source it is `orElseThrow` at VendingMachine.java:46 raising `NoSuchElementException`; the Java exception type is not modelled. The coins `addCoins` loaded first stay loaded, as in the source.
- Java `int` overflow in `calculateTotal` and in the count updates is not modelled. Money and counts are unbounded integers.
- Aliasing is not modelled. The source keeps the caller's constructor maps by reference; the model's ledgers are values.
- Thread safety is not modelled. The model is single-threaded.
- Stack depth is not modelled. The recursive change-maker could overflow the stack on a very large vault; the model's recursion only needs to terminate, and it does, because each step draws one coin.
- Engine.ReturnCoins: requires `Consistent` (every deposited coin kind has a vault slot). The source's `change.get` at VendingMachine.java:82 throws `NullPointerException` otherwise. `Init` establishes the invariant and every engine operation is proved to keep it, so no sequence of operations reaches that state. A vault map mutated from outside is not modelled.
- Largest-first order and a fewest-coins guarantee are not modelled: the code scans in ascending order, and so do both change-makers.
- Engine.BuyItem: as written, an InsufficientChange failure raised by the change-maker itself leaves the vault partly drawn. The contract therefore states the vault for every other failure, including InsufficientChange from the vault check before the change-maker, and for every failure under the intended variant.
- Change.CalculateChange: no completeness claim. A shortfall means no coin is left eligible, not that no combination of coins could pay.
- Change.MakeChange: no completeness claim. A shortfall keeps the vault intact but does not show that no combination could pay.
- The two unit tests of `getPrice` and of buying an unavailable item are covered by the contracts of `Engine.GetPrice` and `Engine.BuyItem`. They have no scenario lemma of their own.

## Findings

| source | as written | input that shows it | evidently intended | confidence | as-written member | corrected member |
|---|---|---|---|---|---|---|
| src/main/java/com/vendingmachine/service/VendingMachine.java:129 | the breakdown count is set to the vault's remaining count + 1, so the recursion keeps drawing coins until the breakdown's value happens to equal the amount owed | owing 10 from six TEN_CENTS (the source's test at VendingMachineTest.java:96-101): {TEN_CENTS:1} is returned, but all six tens leave the vault | the breakdown's own count + 1: one ten paid and five kept | not executed | Findings.CounterDrainsVault | Findings.CorrectedTen |
| src/main/java/com/vendingmachine/service/VendingMachine.java:129 | the same copied count can also make the breakdown worth the amount owed before that many coins are drawn, so change is reported that never left the vault | owing 10 from {ONE_CENT:10, TEN_CENTS:1}: one penny is drawn, {ONE_CENT:10} is returned, and the vault still holds nine pennies | every coin in the change left the vault: vault plus change equals the old vault | not executed | Findings.OnePennyReportedAsTen | Change.MakeChange |
| src/main/java/com/vendingmachine/service/VendingMachine.java:126-127 | coins drawn before `InsufficientChangeException` are not put back | CRISPS paid with one TWENTY_FIVE_CENTS and four TEN_CENTS into an empty vault: the purchase fails with the four tens drawn out, and `returnCoins` then leaves TEN_CENTS at −4 | a failed change attempt leaves the vault exactly as found | not executed | Findings.NoRollbackNegativeVault | Findings.CorrectedQuarterShort |
| src/main/java/com/vendingmachine/service/VendingMachine.java:59-61 | a successful sale keeps the transaction's coins and the pending item | the source's test at VendingMachineTest.java:149-151: a second COCA_COLA paid with FIFTY_CENTS and ONE_DOLLAR counts 300 cents paid and hands back 150 | the transaction is cleared on a sale, so the second drink costs its price | not executed | Findings.SecondColaRefunded | Findings.SecondColaCharged |

=== FILE: change.dfy ===
/** The change-maker: turns an owed amount into coins drawn from the vault.
    `CalculateChange` is the recursive routine exactly as the source writes
    it; `MakeChange` is the corrected routine the machine's intended variant
    uses (see README, Findings). */
module Change {
  import opened Results
  import opened Denominations
  import opened Ledger
  import opened Money

  /** Outcome of a change-making attempt: the breakdown paid out, or a
      shortfall (`InsufficientChangeException`); either way the vault as the
      attempt leaves it. */
  datatype Drawn = Paid(breakdown: Coins, vault: Coins) | Short(vault: Coins)

  /** A coin of `d` may be handed out: it is worth at most `owed` and the vault holds one. */
  function Eligible(d: Denomination, vault: Coins, owed: int): (b: bool)
    ensures b ==> d in vault && 0 < Cents(d) <= owed
  {
    Cents(d) <= owed && Get(vault, d) > 0
  }

  /** Index of the first eligible denomination of `ds` (the stream's two
      `filter`s followed by `findFirst`). */
  function FirstFit(ds: seq<Denomination>, vault: Coins, owed: int): (r: Option<nat>)
    ensures r.Some? ==> r.value < |ds| && Eligible(ds[r.value], vault, owed)
    ensures r.Some? ==> forall j :: 0 <= j < r.value ==> !Eligible(ds[j], vault, owed)
    ensures r.None? <==> forall j :: 0 <= j < |ds| ==> !Eligible(ds[j], vault, owed)
  {
    if |ds| == 0 then None
    else if Eligible(ds[0], vault, owed) then Some(0)
    else
      match FirstFit(ds[1..], vault, owed)
      case None => None
      case Some(k) => Some(k + 1)
  }

  /** The coin drawn next: the denominations tried one by one in ascending
      order of value, the first eligible one taken, so it is the smallest
      eligible coin; none when no coin is. `StreamPicks` shows this is what
      the source's sorted-stream pipeline selects. */
  function Pick(vault: Coins, owed: int): (r: Option<Denomination>)
    ensures r.Some? ==> Eligible(r.value, vault, owed)
    ensures r.Some? ==> forall d :: Eligible(d, vault, owed) ==> Cents(r.value) <= Cents(d)
    ensures r.None? <==> forall d :: !Eligible(d, vault, owed)
  {
    if Eligible(OneCent, vault, owed) then Some(OneCent)
    else if Eligible(FiveCents, vault, owed) then Some(FiveCents)
    else if Eligible(TenCents, vault, owed) then Some(TenCents)
    else if Eligible(TwentyFiveCents, vault, owed) then Some(TwentyFiveCents)
    else if Eligible(FiftyCents, vault, owed) then Some(FiftyCents)
    else if Eligible(OneDollar, vault, owed) then Some(OneDollar)
    else None
  }

  /** The source's selection, `values()` sorted by value (`Ordered`, see
      `OrderedIsSortedValues`), both filters, then `findFirst`, picks the
      same coin as `Pick`. */
  lemma StreamPicks(vault: Coins, owed: int)
    ensures Pick(vault, owed) == match FirstFit(Ordered(), vault, owed)
      case None => None
      case Some(k) => Some(Ordered()[k])
  {
    var ds := Ordered();
    assert ds == Values;
    match FirstFit(ds, vault, owed)
    case None =>
      forall d | true
        ensures !Eligible(d, vault, owed)
      {
        assert ds[Rank(d)] == d;
      }
    case Some(k) =>
      var p := Pick(vault, owed).value;
      assert ds[Rank(p)] == p;
      assert Rank(p) == k;
  }

  /** `c` is drawn next when it is eligible and no cheaper coin is. */
  lemma PickSmallest(vault: Coins, owed: int, c: Denomination)
    requires Eligible(c, vault, owed)
    requires forall d :: Cents(d) < Cents(c) ==> !Eligible(d, vault, owed)
    ensures Pick(vault, owed) == Some(c)
  {
    var r := Pick(vault, owed);
    CentsInjective(r.value, c);
  }

  /** The source's recursive `calculateChange(changeBreakdown, changeOwed)`.
      It returns as soon as the breakdown is worth `owed`. Otherwise it draws
      the smallest coin worth at most the whole of `owed` (not the part still
      to pay) and records, as that coin's breakdown count, the vault's
      remaining count plus one rather than the breakdown's count plus one.
      Coins drawn before a shortfall are not put back. Each step takes one
      coin out of the vault, so the recursion ends. */
  function CalculateChange(vault: Coins, breakdown: Coins, owed: int): (r: Drawn)
    decreases CoinCount(vault)
    ensures r.Paid? ==> Total(r.breakdown) == owed
    ensures owed == Total(breakdown) ==> r == Paid(breakdown, vault)
    ensures r.Short? ==> forall d :: !Eligible(d, r.vault, owed)
    ensures owed != Total(breakdown) && (forall d :: !Eligible(d, vault, owed)) ==> r == Short(vault)
    ensures r.vault.Keys == vault.Keys
    ensures forall d :: Get(r.vault, d) <= Get(vault, d)
    ensures forall d :: Get(r.vault, d) < Get(vault, d) ==> Cents(d) <= owed && Get(r.vault, d) >= 0
    ensures r.Paid? && NonNegative(breakdown) ==> NonNegative(r.breakdown)
  {
    if owed == Total(breakdown) then Paid(breakdown, vault)
    else
      match Pick(vault, owed)
      case None => Short(vault)
      case Some(c) =>
        var drawn := vault[c := Get(vault, c) - 1];
        TakeOneCoin(vault, c);
        CalculateChange(drawn, breakdown[c := Get(drawn, c) + 1], owed)
  }

  /** Every coin the breakdown gained left the vault, and nothing else moved. */
  ghost predicate Conserves(r: Drawn, vault: Coins, breakdown: Coins)
  {
    r.Paid? ==> forall d :: Get(r.vault, d) + Get(r.breakdown, d) == Get(vault, d) + Get(breakdown, d)
  }

  /** The breakdown only gained coins, each worth at most `remaining`. */
  ghost predicate AddsCoinsUpTo(r: Drawn, breakdown: Coins, remaining: int)
  {
    r.Paid? ==> forall d :: Get(r.breakdown, d) >= Get(breakdown, d) && (Get(r.breakdown, d) > Get(breakdown, d) ==> Cents(d) <= remaining)
  }

  /** The vault keeps its keys and only lost coins, never going below 0 in a slot it drew from. */
  ghost predicate TakesCoins(r: Drawn, vault: Coins)
  {
    && r.vault.Keys == vault.Keys
    && forall d :: Get(r.vault, d) <= Get(vault, d) && (Get(r.vault, d) < Get(vault, d) ==> Get(r.vault, d) >= 0)
  }

  /** Drawing coins from a vault with no negative count leaves none negative. */
  lemma TakenKeepsNonNegative(r: Drawn, vault: Coins)
    requires TakesCoins(r, vault)
    ensures NonNegative(vault) ==> NonNegative(r.vault)
  {
    if NonNegative(vault) {
      forall d | d in r.vault
        ensures r.vault[d] >= 0
      {
        assert Get(r.vault, d) == r.vault[d] && Get(vault, d) == vault[d];
      }
    }
  }

  /** One step of the source's change-maker: with the breakdown not yet worth
      `owed`, it draws the picked coin, leaving `vault'`, and records the
      vault's former count of it as the breakdown's count, giving `breakdown'`. */
  lemma CalculateChangeStep(vault: Coins, breakdown: Coins, owed: int, c: Denomination, vault': Coins, breakdown': Coins)
    requires owed != Total(breakdown)
    requires Pick(vault, owed) == Some(c)
    requires vault' == vault[c := Get(vault, c) - 1]
    requires breakdown' == breakdown[c := Get(vault, c)]
    ensures CalculateChange(vault, breakdown, owed) == CalculateChange(vault', breakdown', owed)
  {
    assert Get(vault', c) + 1 == Get(vault, c);
    assert breakdown' == breakdown[c := Get(vault', c) + 1];
    assert CalculateChange(vault, breakdown, owed) == CalculateChange(vault', breakdown[c := Get(vault', c) + 1], owed);
  }

  /** Corrected change-making loop: draws the smallest eligible coin for the
      amount still owed, counts it in its own breakdown entry, and stops when
      nothing is left to pay. */
  function DrawRemaining(vault: Coins, breakdown: Coins, remaining: int): (r: Drawn)
    decreases CoinCount(vault)
    ensures r.Paid? ==> Total(r.breakdown) == Total(breakdown) + remaining
    ensures Conserves(r, vault, breakdown)
    ensures AddsCoinsUpTo(r, breakdown, remaining)
    ensures TakesCoins(r, vault)
  {
    if remaining == 0 then Paid(breakdown, vault)
    else
      match Pick(vault, remaining)
      case None => Short(vault)
      case Some(c) =>
        var vault' := vault[c := Get(vault, c) - 1];
        var breakdown' := breakdown[c := Get(breakdown, c) + 1];
        TakeOneCoin(vault, c);
        TotalUpdate(breakdown, c, 1);
        var r := DrawRemaining(vault', breakdown', remaining - Cents(c));
        DrawStep(vault, breakdown, remaining, c, r);
        r
  }

  /** One drawn coin followed by a well-behaved rest is well-behaved. */
  lemma DrawStep(vault: Coins, breakdown: Coins, remaining: int, c: Denomination, r: Drawn)
    requires Get(vault, c) > 0 && 0 < Cents(c) <= remaining
    requires Conserves(r, vault[c := Get(vault, c) - 1], breakdown[c := Get(breakdown, c) + 1])
    requires AddsCoinsUpTo(r, breakdown[c := Get(breakdown, c) + 1], remaining - Cents(c))
    requires TakesCoins(r, vault[c := Get(vault, c) - 1])
    ensures Conserves(r, vault, breakdown)
    ensures AddsCoinsUpTo(r, breakdown, remaining)
    ensures TakesCoins(r, vault)
  {
    var vault' := vault[c := Get(vault, c) - 1];
    var breakdown' := breakdown[c := Get(breakdown, c) + 1];
    assert forall d :: Get(vault', d) == Get(vault, d) - (if d == c then 1 else 0);
    assert forall d :: Get(breakdown', d) == Get(breakdown, d) + (if d == c then 1 else 0);
  }

  /** Corrected `calculateChange(changeOwed)`: on success the breakdown is
      worth exactly `owed` and every coin in it left the vault (nothing else
      did); on a shortfall the vault is left exactly as found. */
  function MakeChange(vault: Coins, owed: int): (r: Drawn)
    ensures r.Paid? ==> Total(r.breakdown) == owed
    ensures r.Paid? ==> forall d :: Get(r.vault, d) + Get(r.breakdown, d) == Get(vault, d)
    ensures r.Paid? ==> NonNegative(r.breakdown)
    ensures r.Paid? ==> forall d :: Get(r.breakdown, d) > 0 ==> Cents(d) <= owed
    ensures NonNegative(vault) ==> NonNegative(r.vault)
    ensures r.vault.Keys == vault.Keys
    ensures r.Short? ==> r.vault == vault
    ensures owed == 0 ==> r == Paid(map[], vault)
  {
    var drawn := DrawRemaining(vault, NoCoins, owed);
    TakenKeepsNonNegative(drawn, vault);
    if drawn.Paid? then
      DrawnFromEmpty(drawn, vault, owed);
      drawn
    else
      Short(vault)
  }

  /** What a successful draw that started from an empty breakdown guarantees. */
  lemma DrawnFromEmpty(r: Drawn, vault: Coins, owed: int)
    requires r.Paid?
    requires Conserves(r, vault, NoCoins) && AddsCoinsUpTo(r, NoCoins, owed)
    ensures forall d :: Get(r.vault, d) + Get(r.breakdown, d) == Get(vault, d)
    ensures NonNegative(r.breakdown)
    ensures forall d :: Get(r.breakdown, d) > 0 ==> Cents(d) <= owed
  {
    assert forall d :: Get(NoCoins, d) == 0;
    forall d | d in r.breakdown
      ensures r.breakdown[d] >= 0
    {
      assert Get(r.breakdown, d) >= Get(NoCoins, d);
    }
  }
}

=== FILE: denominations.dfy ===
/** The coin denominations the machine accepts and pays out, with their face
    values and the ascending ordering the change-maker scans. */
module Denominations {

  datatype Denomination = OneCent | FiveCents | TenCents | TwentyFiveCents | FiftyCents | OneDollar

  /** Face value in cents (the enum's `totalCents`). */
  function Cents(d: Denomination): (c: int)
    ensures 1 <= c <= 100
    ensures c == 1 <==> d == OneCent
    ensures c == 100 <==> d == OneDollar
  {
    match d
    case OneCent => 1
    case FiveCents => 5
    case TenCents => 10
    case TwentyFiveCents => 25
    case FiftyCents => 50
    case OneDollar => 100
  }

  /** The enum constants in declaration order (the enum's `values()`). */
  const Values: seq<Denomination> :=
    [OneCent, FiveCents, TenCents, TwentyFiveCents, FiftyCents, OneDollar]

  /** Each denomination is declared exactly once, and there are six of them. */
  lemma ValuesListsEachOnce(d: Denomination)
    ensures |Values| == 6
    ensures multiset(Values)[d] == 1
  {
  }

  /** The six face values are 1, 5, 10, 25, 50 and 100 cents. */
  lemma FaceValues()
    ensures seq(|Values|, i requires 0 <= i < |Values| => Cents(Values[i])) == [1, 5, 10, 25, 50, 100]
  {
  }

  /** Distinct coins have distinct face values, so comparing face values is a
      strict total order on denominations. */
  lemma CentsInjective(a: Denomination, b: Denomination)
    ensures Cents(a) == Cents(b) <==> a == b
    ensures a != b ==> Cents(a) < Cents(b) || Cents(b) < Cents(a)
  {
  }

  /** `s` is sorted by face value (the order `Comparator.comparing(totalCents)` asks for). */
  ghost predicate SortedByCents(s: seq<Denomination>)
  {
    forall i, j :: 0 <= i < j < |s| ==> Cents(s[i]) <= Cents(s[j])
  }

  /** Inserts `d` into a sequence already sorted by face value. */
  function Insert(d: Denomination, s: seq<Denomination>): (r: seq<Denomination>)
    requires SortedByCents(s)
    ensures SortedByCents(r)
    ensures multiset(r) == multiset(s) + multiset{d}
  {
    if |s| == 0 then [d]
    else if Cents(d) <= Cents(s[0]) then [d] + s
    else
      var rest := Insert(d, s[1..]);
      assert s == [s[0]] + s[1..];
      HeadBelowRest(s[0], d, s[1..], rest);
      [s[0]] + rest
  }

  /** The head of a sorted sequence stays below everything an insertion of a
      larger coin into its tail produces. */
  lemma HeadBelowRest(h: Denomination, d: Denomination, tail: seq<Denomination>, rest: seq<Denomination>)
    requires SortedByCents([h] + tail)
    requires Cents(h) < Cents(d)
    requires multiset(rest) == multiset(tail) + multiset{d}
    requires SortedByCents(rest)
    ensures SortedByCents([h] + rest)
  {
    forall j | 0 <= j < |rest|
      ensures Cents(h) <= Cents(rest[j])
    {
      assert rest[j] in multiset(rest);
      if rest[j] != d {
        assert rest[j] in multiset(tail);
        var k :| 0 <= k < |tail| && tail[k] == rest[j];
        assert ([h] + tail)[0] == h && ([h] + tail)[k + 1] == tail[k];
        assert Cents(([h] + tail)[0]) <= Cents(([h] + tail)[k + 1]);
      }
    }
  }

  /** Sorts by ascending face value (the stream `sorted` step of `ordered()`). */
  function SortByCents(s: seq<Denomination>): (r: seq<Denomination>)
    ensures SortedByCents(r)
    ensures multiset(r) == multiset(s)
  {
    if |s| == 0 then []
    else
      assert s == [s[0]] + s[1..];
      Insert(s[0], SortByCents(s[1..]))
  }

  /** The denominations in ascending order of face value (`ordered()`): every
      coin exactly once, strictly ascending, from ONE_CENT to ONE_DOLLAR. The
      declaration order already is that order; `OrderedIsSortedValues` shows
      that sorting `values()` by face value yields it. */
  function Ordered(): (r: seq<Denomination>)
    ensures |r| == 6
    ensures forall d :: multiset(r)[d] == 1
    ensures forall i, j :: 0 <= i < j < |r| ==> Cents(r[i]) < Cents(r[j])
    ensures r[0] == OneCent && r[5] == OneDollar
  {
    ValuesAscending();
    Values
  }

  /** `ordered()` is `values()` sorted by face value. */
  lemma OrderedIsSortedValues()
    ensures SortByCents(Values) == Ordered()
  {
    OrderedIsDeclarationOrder(SortByCents(Values));
  }

  /** The declaration order lists every coin once, strictly ascending by face value. */
  lemma ValuesAscending()
    ensures forall d :: multiset(Values)[d] == 1
    ensures forall i, j :: 0 <= i < j < |Values| ==> Cents(Values[i]) < Cents(Values[j])
  {
    forall d | true
      ensures multiset(Values)[d] == 1
    {
      ValuesListsEachOnce(d);
    }
  }

  /** Position of a denomination in declaration order. */
  function Rank(d: Denomination): (k: int)
    ensures 0 <= k < |Values| && Values[k] == d
  {
    match d
    case OneCent => 0
    case FiveCents => 1
    case TenCents => 2
    case TwentyFiveCents => 3
    case FiftyCents => 4
    case OneDollar => 5
  }

  /** Face value grows with declaration rank. */
  lemma CentsFollowRank(a: Denomination, b: Denomination)
    ensures Cents(a) < Cents(b) <==> Rank(a) < Rank(b)
  {
  }

  /** Two equal entries in a sequence make that coin occur at least twice. */
  lemma RepeatedEntry(r: seq<Denomination>, i: int, j: int)
    requires 0 <= i < j < |r| && r[i] == r[j]
    ensures multiset(r)[r[i]] >= 2
  {
    var x := r[i];
    assert r == r[..i] + [x] + r[i+1..j] + [x] + r[j+1..];
  }

  /** In a sorted permutation of `Values`, neighbouring slots strictly increase in rank. */
  lemma NeighboursIncrease(r: seq<Denomination>, i: int)
    requires SortedByCents(r)
    requires multiset(r) == multiset(Values)
    requires 0 <= i < |r| - 1
    ensures Rank(r[i]) < Rank(r[i + 1])
  {
    if r[i] == r[i + 1] {
      RepeatedEntry(r, i, i + 1);
      ValuesListsEachOnce(r[i]);
      assert false;
    }
    CentsInjective(r[i], r[i + 1]);
    CentsFollowRank(r[i], r[i + 1]);
  }

  /** A permutation of `Values` sorted by face value is `Values` itself: the
      declaration order is already ascending. */
  lemma {:induction false} OrderedIsDeclarationOrder(r: seq<Denomination>)
    requires SortedByCents(r)
    requires multiset(r) == multiset(Values)
    ensures r == Values
  {
    assert |r| == 6 by { assert |multiset(r)| == |multiset(Values)|; }
    NeighboursIncrease(r, 0);
    NeighboursIncrease(r, 1);
    NeighboursIncrease(r, 2);
    NeighboursIncrease(r, 3);
    NeighboursIncrease(r, 4);
    // Six strictly increasing ranks in 0..5 can only be 0, 1, ..., 5.
    assert Rank(r[0]) == 0 && Rank(r[5]) == 5;
    assert r[0] == Values[0] && r[1] == Values[1] && r[2] == Values[2];
    assert r[3] == Values[3] && r[4] == Values[4] && r[5] == Values[5];
  }
}

=== FILE: engine.dfy ===
/** The purchase engine (`VendingMachine`): item stock, the coin vault, the
    coins deposited in the current transaction and the pending item, with
    every public operation a pure transition from one machine state to the
    next. */
module Engine {
  import opened Results
  import opened Denominations
  import opened Items
  import opened Ledger
  import opened Money
  import opened Change

  /** The engine's checked exceptions, plus the missing-pending-item case. */
  datatype Error =
    | ItemNotAvailable
    | InsufficientFunds(deficit: int)
    | InsufficientChange
    | NoPendingPurchase

  /** How a purchase completes. `AsWritten` follows the source line for line;
      `Intended` uses the corrected change-maker and clears the transaction
      after a sale (README, Findings). Everything else is shared. */
  datatype Variant = AsWritten | Intended

  /** The machine's four fields. */
  datatype Machine = Machine(
    inventory: map<ItemType, int>,
    vault: Coins,
    transaction: Coins,
    pending: Option<ItemType>)

  /** What an operation returns (a value or the exception it throws) and the
      state it leaves behind either way. */
  datatype Step<T> = Step(result: Result<T, Error>, machine: Machine)

  /** Every coin kind deposited in the transaction has a slot in the vault,
      so handing the deposit back never reads a missing vault entry. */
  ghost predicate Consistent(m: Machine)
  {
    m.transaction.Keys <= m.vault.Keys
  }

  /** The constructor: the given stock and vault, no transaction, no pending item. */
  function Init(inventory: map<ItemType, int>, vault: Coins): (m: Machine)
    ensures Consistent(m)
    ensures m.transaction == map[] && m.pending == None
    ensures m.inventory == inventory && m.vault == vault
  {
    Machine(inventory, vault, map[], None)
  }

  /** Stock of one item kind, 0 when absent. */
  function Stock(m: Machine, i: ItemType): int
  {
    Get(m.inventory, i)
  }

  /** `availableItems`: the kinds whose recorded stock is positive. */
  function AvailableItems(m: Machine): (r: set<ItemType>)
    ensures forall i :: i in r <==> Stock(m, i) > 0
  {
    set i | i in m.inventory && m.inventory[i] > 0
  }

  /** `getPrice`: the catalogue price, whatever the machine holds. */
  function GetPrice(m: Machine, i: ItemType): (p: int)
    ensures p == Price(i)
    ensures p > 0
  {
    Price(i)
  }

  /** `loadCoinsForCurrentTransaction`: the coins join both the transaction
      and the vault. */
  function LoadCoins(m: Machine, coins: Coins): (r: Machine)
    ensures forall d :: Get(r.transaction, d) == Get(m.transaction, d) + Get(coins, d)
    ensures forall d :: Get(r.vault, d) == Get(m.vault, d) + Get(coins, d)
    ensures Total(r.transaction) == Total(m.transaction) + Total(coins)
    ensures Total(r.vault) == Total(m.vault) + Total(coins)
    ensures r.inventory == m.inventory && r.pending == m.pending
    ensures Consistent(m) ==> Consistent(r)
  {
    TotalMerge(m.transaction, coins);
    TotalMerge(m.vault, coins);
    m.(transaction := Merge(m.transaction, coins), vault := Merge(m.vault, coins))
  }

  /** `loadChange`: adds coins to the vault only. */
  function LoadChange(m: Machine, extra: Coins): (r: Machine)
    ensures forall d :: Get(r.vault, d) == Get(m.vault, d) + Get(extra, d)
    ensures forall d :: d in m.vault && d !in extra ==> d in r.vault && r.vault[d] == m.vault[d]
    ensures Total(r.vault) == Total(m.vault) + Total(extra)
    ensures r.inventory == m.inventory && r.transaction == m.transaction && r.pending == m.pending
    ensures Consistent(m) ==> Consistent(r)
  {
    TotalMerge(m.vault, extra);
    m.(vault := Merge(m.vault, extra))
  }

  /** `loadItems`: adds stock, an absent kind starting from 0. */
  function LoadItems(m: Machine, extra: map<ItemType, int>): (r: Machine)
    ensures forall i :: Stock(r, i) == Stock(m, i) + Get(extra, i)
    ensures forall i :: i in m.inventory && i !in extra ==> i in r.inventory && r.inventory[i] == m.inventory[i]
    ensures r.vault == m.vault && r.transaction == m.transaction && r.pending == m.pending
  {
    m.(inventory := Merge(m.inventory, extra))
  }

  /** `returnCoins`: hands back the transaction's coins, takes them out of
      the vault, and forgets the transaction and the pending item. */
  function ReturnCoins(m: Machine): (r: Step<Coins>)
    requires Consistent(m)
    ensures r.result == Ok(m.transaction)
    ensures forall d :: Get(r.machine.vault, d) == Get(m.vault, d) - Get(m.transaction, d)
    ensures Total(r.machine.vault) == Total(m.vault) - Total(m.transaction)
    ensures r.machine.transaction == map[] && r.machine.pending == None
    ensures r.machine.inventory == m.inventory
    ensures Consistent(r.machine)
  {
    TotalWithdraw(m.vault, m.transaction);
    Step(Ok(m.transaction), m.(vault := Withdraw(m.vault, m.transaction), transaction := map[], pending := None))
  }

  /** `releaseItem`: one unit of `i` leaves the stock. The source reads the
      count without a default, so the kind must be recorded. */
  function Release(inventory: map<ItemType, int>, i: ItemType): (r: map<ItemType, int>)
    requires i in inventory
    ensures Get(r, i) == Get(inventory, i) - 1
    ensures forall j :: j != i ==> Get(r, j) == Get(inventory, j)
    ensures r.Keys == inventory.Keys
  {
    inventory[i := inventory[i] - 1]
  }

  /** The change-maker the variant uses (`calculateChange(changeOwed)`). */
  function Settle(v: Variant, vault: Coins, owed: int): (r: Drawn)
    ensures r.Paid? ==> Total(r.breakdown) == owed
    ensures owed == 0 ==> r == Paid(map[], vault)
    ensures r.vault.Keys == vault.Keys
    ensures v.Intended? && r.Paid? ==> forall d :: Get(r.vault, d) + Get(r.breakdown, d) == Get(vault, d)
    ensures v.Intended? && r.Short? ==> r.vault == vault
  {
    match v
    case AsWritten =>
      assert Total(map[]) == 0;
      CalculateChange(vault, map[], owed)
    case Intended => MakeChange(vault, owed)
  }

  /** The state after a sale: one unit released and the vault as the change
      left it; the intended variant also closes the transaction. */
  function Sold(v: Variant, m: Machine, i: ItemType, vault: Coins): (r: Machine)
    requires i in m.inventory
    ensures Stock(r, i) == Stock(m, i) - 1
    ensures forall j :: j != i ==> Stock(r, j) == Stock(m, j)
    ensures r.vault == vault
    ensures v.AsWritten? ==> r.transaction == m.transaction && r.pending == m.pending
    ensures v.Intended? ==> r.transaction == map[] && r.pending == None
  {
    match v
    case AsWritten => m.(inventory := Release(m.inventory, i), vault := vault)
    case Intended => m.(inventory := Release(m.inventory, i), vault := vault, transaction := map[], pending := None)
  }

  /** The private `buyItem()`: completes the pending purchase from the coins
      already in the transaction. Checks run in the source's order: no pending
      item, stock exactly 0, too little paid, too little money in the vault,
      then the change-maker. */
  function Purchase(v: Variant, m: Machine): (r: Step<Coins>)
    ensures m.pending.None? ==> r == Step(Err(NoPendingPurchase), m)
    ensures m.pending.Some? ==> (r.result == Err(ItemNotAvailable) <==> Stock(m, m.pending.value) == 0)
    ensures r.result.Err? && r.result.error.InsufficientFunds? <==>
              m.pending.Some? && Stock(m, m.pending.value) != 0 && Total(m.transaction) < Price(m.pending.value)
    ensures r.result.Err? && r.result.error.InsufficientFunds? ==>
              r.result.error.deficit == Price(m.pending.value) - Total(m.transaction) > 0
    ensures r.result == Err(InsufficientChange) ==>
              m.pending.Some? && Stock(m, m.pending.value) != 0 && Total(m.transaction) >= Price(m.pending.value)
    ensures r.result.Err? && r.result.error != InsufficientChange ==> r.machine == m
    ensures (&& m.pending.Some? && Stock(m, m.pending.value) != 0 && Price(m.pending.value) <= Total(m.transaction)
             && Total(m.vault) < Total(m.transaction) - Price(m.pending.value))
            ==> r == Step(Err(InsufficientChange), m)
    ensures r.result.Err? ==> r.machine.inventory == m.inventory && r.machine.transaction == m.transaction && r.machine.pending == m.pending
    ensures r.result.Ok? ==> m.pending.Some? && Stock(m, m.pending.value) != 0
    ensures r.result.Ok? ==> Total(r.result.value) == Total(m.transaction) - Price(m.pending.value)
    ensures r.result.Ok? ==> Stock(r.machine, m.pending.value) == Stock(m, m.pending.value) - 1
    ensures r.result.Ok? ==> forall j :: j != m.pending.value ==> Stock(r.machine, j) == Stock(m, j)
    ensures v.AsWritten? && r.result.Ok? ==> r.machine.transaction == m.transaction && r.machine.pending == m.pending
    ensures v.Intended? && r.result.Ok? ==> r.machine.transaction == map[] && r.machine.pending == None
    ensures v.Intended? && r.result.Ok? ==> forall d :: Get(r.machine.vault, d) + Get(r.result.value, d) == Get(m.vault, d)
    ensures v.Intended? && r.result.Err? ==> r.machine == m
    ensures Consistent(m) ==> Consistent(r.machine)
  {
    match m.pending
    case None => Step(Err(NoPendingPurchase), m)
    case Some(i) =>
      if Stock(m, i) == 0 then Step(Err(ItemNotAvailable), m)
      else
        var paid := Total(m.transaction);
        if paid < Price(i) then Step(Err(InsufficientFunds(Price(i) - paid)), m)
        else
          var owed := paid - Price(i);
          if Total(m.vault) < owed then Step(Err(InsufficientChange), m)
          else Complete(v, m, i, owed)
  }

  /** The last stage of a purchase that passed every check: the change-maker
      either pays out, completing the sale, or runs short. */
  function Complete(v: Variant, m: Machine, i: ItemType, owed: int): (r: Step<Coins>)
    requires i in m.inventory
    ensures r.result.Ok? || r.result == Err(InsufficientChange)
    ensures r.result.Ok? ==> Total(r.result.value) == owed
    ensures r.result.Ok? ==> Stock(r.machine, i) == Stock(m, i) - 1
    ensures r.result.Err? ==> r.machine.inventory == m.inventory && r.machine.transaction == m.transaction && r.machine.pending == m.pending
    ensures v.Intended? && r.result.Err? ==> r.machine == m
  {
    match Settle(v, m.vault, owed)
    case Short(vault) => Step(Err(InsufficientChange), m.(vault := vault))
    case Paid(change, vault) => Step(Ok(change), Sold(v, m, i, vault))
  }

  /** The public `buyItem(itemType, coins)`: deposits the coins, makes `i`
      the pending item (replacing any other), then completes the purchase. */
  function BuyItem(v: Variant, m: Machine, i: ItemType, coins: Coins): (r: Step<Coins>)
    ensures r.result != Err(NoPendingPurchase)
    ensures r.result == Err(ItemNotAvailable) <==> Stock(m, i) == 0
    ensures r.result.Err? && r.result.error.InsufficientFunds? <==>
              Stock(m, i) != 0 && Total(m.transaction) + Total(coins) < Price(i)
    ensures r.result.Err? && r.result.error.InsufficientFunds? ==>
              r.result.error.deficit == Price(i) - (Total(m.transaction) + Total(coins))
    ensures r.result == Err(InsufficientChange) ==> Stock(m, i) != 0 && Total(m.transaction) + Total(coins) >= Price(i)
    ensures r.result.Err? ==> r.machine.inventory == m.inventory && r.machine.pending == Some(i)
    ensures r.result.Err? ==> forall d :: Get(r.machine.transaction, d) == Get(m.transaction, d) + Get(coins, d)
    ensures (&& Stock(m, i) != 0 && Price(i) <= Total(m.transaction) + Total(coins)
             && Total(m.vault) < Total(m.transaction) - Price(i))
            ==> r == Step(Err(InsufficientChange), LoadCoins(m, coins).(pending := Some(i)))
    ensures r.result.Err? && (v.Intended? || r.result.error != InsufficientChange || Total(m.vault) < Total(m.transaction) - Price(i)) ==>
              forall d :: Get(r.machine.vault, d) == Get(m.vault, d) + Get(coins, d)
    ensures r.result.Ok? ==> Total(r.result.value) == Total(m.transaction) + Total(coins) - Price(i)
    ensures r.result.Ok? ==> Stock(r.machine, i) == Stock(m, i) - 1
    ensures r.result.Ok? ==> forall j :: j != i ==> Stock(r.machine, j) == Stock(m, j)
    ensures Consistent(m) ==> Consistent(r.machine)
  {
    Purchase(v, LoadCoins(m, coins).(pending := Some(i)))
  }

  /** `addCoins`: deposits more coins into the open transaction and retries
      the pending item. Without one the coins stay deposited and the call
      fails. */
  function AddCoins(v: Variant, m: Machine, coins: Coins): (r: Step<Coins>)
    ensures m.pending.None? ==> r == Step(Err(NoPendingPurchase), LoadCoins(m, coins))
    ensures m.pending.Some? ==> r == BuyItem(v, m, m.pending.value, coins)
    ensures Consistent(m) ==> Consistent(r.machine)
  {
    Purchase(v, LoadCoins(m, coins))
  }

  /** A deposit handed straight back by `returnCoins` returns exactly the
      deposited coins and restores every vault count and the vault's value. */
  lemma DepositThenReturn(m: Machine, coins: Coins)
    requires Consistent(m)
    requires forall d :: Get(m.transaction, d) == 0
    ensures var r := ReturnCoins(LoadCoins(m, coins));
      && (forall d :: Get(r.result.value, d) == Get(coins, d))
      && (forall d :: Get(r.machine.vault, d) == Get(m.vault, d))
      && Total(r.machine.vault) == Total(m.vault)
  {
    TotalEmpty(m.transaction);
  }

  /** From a fresh transaction the vault check before the change-maker cannot
      fail: the deposit itself is already in the vault, so the vault holds at
      least the change owed. An as-written `InsufficientChange` on a fresh
      transaction therefore always comes from the change-maker. */
  lemma FreshDepositPassesVaultCheck(m: Machine, i: ItemType, coins: Coins)
    requires NonNegative(m.vault)
    requires forall d :: Get(m.transaction, d) == 0
    ensures var loaded := LoadCoins(m, coins);
      Total(loaded.vault) >= Total(loaded.transaction) - Price(i)
  {
    TotalEmpty(m.transaction);
  }

  /** A purchase from a fresh transaction that fails with `ItemNotAvailable`
      or `InsufficientFunds` (or any failure of the intended variant) can be
      cancelled at no cost: `returnCoins` gives back the deposit and the vault
      and stock are as before the attempt. */
  lemma FailedPurchaseCancels(v: Variant, m: Machine, i: ItemType, coins: Coins)
    requires Consistent(m)
    requires forall d :: Get(m.transaction, d) == 0
    requires BuyItem(v, m, i, coins).result.Err?
    requires v.Intended? || BuyItem(v, m, i, coins).result.error != InsufficientChange
    ensures var c := ReturnCoins(BuyItem(v, m, i, coins).machine);
      && (forall d :: Get(c.result.value, d) == Get(coins, d))
      && (forall d :: Get(c.machine.vault, d) == Get(m.vault, d))
      && c.machine.inventory == m.inventory
      && c.machine.pending == None
  {
  }

  /** With the intended completion a sale from a fresh transaction keeps
      exactly the price: the vault's value grows by the price, the change
      handed out makes up the rest of the deposit, and the transaction closes. */
  lemma IntendedSaleKeepsPrice(m: Machine, i: ItemType, coins: Coins)
    requires forall d :: Get(m.transaction, d) == 0
    requires BuyItem(Intended, m, i, coins).result.Ok?
    ensures var r := BuyItem(Intended, m, i, coins);
      && Total(r.machine.vault) == Total(m.vault) + Price(i)
      && Total(r.result.value) == Total(coins) - Price(i)
      && r.machine.transaction == map[]
      && r.machine.pending == None
  {
    var deposited := LoadCoins(m, coins).(pending := Some(i));
    var r := Purchase(Intended, deposited);
    assert r == BuyItem(Intended, m, i, coins);
    TotalEmpty(m.transaction);
    assert Total(deposited.vault) == Total(m.vault) + Total(coins);
    assert Total(r.result.value) == Total(coins) - Price(i);
    TotalSplit(r.machine.vault, r.result.value, deposited.vault);
  }

  /** A purchase that passes every check reaches the change-maker. */
  lemma PurchaseCompletes(v: Variant, m: Machine, i: ItemType)
    requires m.pending == Some(i) && Stock(m, i) != 0
    requires Price(i) <= Total(m.transaction)
    requires Total(m.transaction) - Price(i) <= Total(m.vault)
    ensures i in m.inventory
    ensures Purchase(v, m) == Complete(v, m, i, Total(m.transaction) - Price(i))
  {
    assert i in m.inventory;
    var owed := Total(m.transaction) - Price(i);
    var c := Complete(v, m, i, owed);
    assert Purchase(v, m) == c;
  }

  /** Unfolds a purchase that reaches the change-maker and runs short. */
  lemma PurchaseShort(v: Variant, m: Machine, i: ItemType, vault: Coins)
    requires m.pending == Some(i) && Stock(m, i) != 0
    requires Price(i) <= Total(m.transaction)
    requires Total(m.transaction) - Price(i) <= Total(m.vault)
    requires Settle(v, m.vault, Total(m.transaction) - Price(i)) == Short(vault)
    ensures Purchase(v, m) == Step(Err(InsufficientChange), m.(vault := vault))
  {
    PurchaseCompletes(v, m, i);
  }

  /** Unfolds a purchase whose change-maker pays out. */
  lemma PurchasePaid(v: Variant, m: Machine, i: ItemType, change: Coins, vault: Coins)
    requires m.pending == Some(i) && Stock(m, i) != 0
    requires Price(i) <= Total(m.transaction)
    requires Total(m.transaction) - Price(i) <= Total(m.vault)
    requires Settle(v, m.vault, Total(m.transaction) - Price(i)) == Paid(change, vault)
    ensures i in m.inventory
    ensures Purchase(v, m) == Step(Ok(change), Sold(v, m, i, vault))
  {
    PurchaseCompletes(v, m, i);
  }

  /** Restocking the unit a sale released restores every stock count. */
  lemma RestockUndoesRelease(m: Machine, i: ItemType)
    requires i in m.inventory
    ensures forall j :: Stock(LoadItems(m.(inventory := Release(m.inventory, i)), map[i := 1]), j) == Stock(m, j)
  {
  }

  /** A first deposit into a machine with an empty vault and no transaction. */
  lemma FreshDeposit(inventory: map<ItemType, int>, coins: Coins, i: ItemType)
    ensures LoadCoins(Init(inventory, NoCoins), coins).(pending := Some(i)) == Machine(inventory, coins, coins, Some(i))
  {
    MergeIntoEmpty(coins);
  }
}

=== FILE: findings.dfy ===
/** Concrete inputs on which the source's purchase completion misbehaves,
    each next to what the corrected completion does with the same input. */
module Findings {
  import opened Results
  import opened Denominations
  import opened Items
  import opened Ledger
  import opened Money
  import opened Change
  import opened Engine

  /** A vault or breakdown holding `n` TEN_CENTS and nothing else. */
  function Tens(n: int): Coins
  {
    map[TenCents := n]
  }

  lemma TensValue(n: int)
    ensures Total(Tens(n)) == 10 * n
  {
    TotalSingle(TenCents, n);
  }

  /** Map bookkeeping of one drawn ten. */
  lemma TenSlotUpdates(n: int, recorded: int)
    ensures Tens(n)[TenCents := Get(Tens(n), TenCents) - 1] == Tens(n - 1)
    ensures Tens(recorded)[TenCents := Get(Tens(n), TenCents)] == Tens(n)
    ensures NoCoins[TenCents := Get(Tens(n), TenCents)] == Tens(n)
  {
  }

  /** Owing 10 cents while the breakdown is not worth 10, the source draws a
      ten and records the vault's former count of tens. */
  lemma DrawTen(n: int, recorded: int)
    requires n >= 1 && recorded != 1
    ensures CalculateChange(Tens(n), Tens(recorded), 10) == CalculateChange(Tens(n - 1), Tens(n), 10)
  {
    TensValue(recorded);
    PickSmallest(Tens(n), 10, TenCents);
    TenSlotUpdates(n, recorded);
    CalculateChangeStep(Tens(n), Tens(recorded), 10, TenCents, Tens(n - 1), Tens(n));
  }

  /** Once the breakdown's copied count reads 1 it is worth the 10 cents owed. */
  lemma TensPaid(n: int)
    ensures CalculateChange(Tens(n), Tens(1), 10) == Paid(Tens(1), Tens(n))
  {
    TensValue(1);
  }

  /** Owing 10 cents, with `n - 1` TEN_CENTS left in the vault and the
      breakdown recording `n`, the source keeps drawing tens until the
      breakdown's copied count reads 1, which leaves the vault empty. */
  lemma {:induction false} TensDrained(n: int)
    requires n >= 1
    ensures CalculateChange(Tens(n - 1), Tens(n), 10) == Paid(Tens(1), Tens(0))
    decreases n
  {
    if n == 1 {
      TensPaid(0);
    } else {
      TensDrained(n - 1);
      DrawTen(n - 1, n);
    }
  }

  /** The source's first draw from `n` tens records the vault's whole count. */
  lemma FirstTen(n: int)
    requires n >= 1
    ensures CalculateChange(Tens(n), NoCoins, 10) == CalculateChange(Tens(n - 1), Tens(n), 10)
  {
    TotalEmpty(NoCoins);
    PickSmallest(Tens(n), 10, TenCents);
    TenSlotUpdates(n, 0);
    CalculateChangeStep(Tens(n), NoCoins, 10, TenCents, Tens(n - 1), Tens(n));
  }

  /** Owing 10 cents from a vault of `n` TEN_CENTS, the source's change-maker
      pays one coin but leaves none in the vault: the breakdown counter is
      copied from the vault, so it keeps drawing. The corrected change-maker
      leaves the other `n - 1`. */
  lemma CounterDrainsVault(n: int)
    requires n >= 1
    ensures CalculateChange(Tens(n), NoCoins, 10) == Paid(Tens(1), Tens(0))
    ensures MakeChange(Tens(n), 10) == Paid(Tens(1), Tens(n - 1))
  {
    FirstTen(n);
    TensDrained(n);
    CorrectedTen(n);
  }

  /** The corrected change-maker pays one ten and keeps the rest. */
  lemma CorrectedTen(n: int)
    requires n >= 1
    ensures MakeChange(Tens(n), 10) == Paid(Tens(1), Tens(n - 1))
  {
    var empty: Coins := map[];
    PickSmallest(Tens(n), 10, TenCents);
    TenSlotUpdates(n, 0);
    assert empty[TenCents := Get(empty, TenCents) + 1] == Tens(1);
    assert DrawRemaining(Tens(n), empty, 10) == DrawRemaining(Tens(n - 1), Tens(1), 0);
  }

  /** A vault holding `n` ONE_CENT and one TEN_CENTS. */
  function PenniesAndTen(n: int): Coins
  {
    map[OneCent := n, TenCents := 1]
  }

  /** The copied counter can also stop early and report coins never drawn:
      owing 10 from ten pennies and a ten, the source draws one penny,
      records the vault's former count of 10 pennies, finds that worth the
      10 owed, and returns it. Vault and breakdown together then hold 19
      pennies where there were 10. */
  lemma OnePennyReportedAsTen()
    ensures CalculateChange(PenniesAndTen(10), NoCoins, 10) == Paid(map[OneCent := 10], PenniesAndTen(9))
    ensures Get(PenniesAndTen(9), OneCent) + Get(map[OneCent := 10], OneCent) != Get(PenniesAndTen(10), OneCent)
  {
    TotalEmpty(NoCoins);
    PickSmallest(PenniesAndTen(10), 10, OneCent);
    assert PenniesAndTen(10)[OneCent := Get(PenniesAndTen(10), OneCent) - 1] == PenniesAndTen(9);
    assert NoCoins[OneCent := Get(PenniesAndTen(10), OneCent)] == map[OneCent := 10];
    CalculateChangeStep(PenniesAndTen(10), NoCoins, 10, OneCent, PenniesAndTen(9), map[OneCent := 10]);
    TotalSingle(OneCent, 10);
  }

  /** The source's own test: six tens for CRISPS (50) into an empty vault.
      Both variants hand back the one ten owed, but the source's vault is
      left with no tens although five were never paid out. */
  lemma SixTensForCrisps(v: Variant)
    ensures var r := BuyItem(v, Init(Stocked, NoCoins), Crisps, Tens(6));
      && r.result == Ok(Tens(1))
      && r.machine.vault == (if v == AsWritten then Tens(0) else Tens(5))
  {
    var deposited := Machine(Stocked, Tens(6), Tens(6), Some(Crisps));
    var left := if v == AsWritten then Tens(0) else Tens(5);
    FreshDeposit(Stocked, Tens(6), Crisps);
    TensValue(6);
    SixTensSettle(v);
    PurchasePaid(v, deposited, Crisps, Tens(1), left);
  }

  /** The change-makers' payouts for the ten owed from six tens. */
  lemma SixTensSettle(v: Variant)
    ensures Settle(v, Tens(6), 10) == Paid(Tens(1), if v == AsWritten then Tens(0) else Tens(5))
  {
    CounterDrainsVault(6);
    if v == AsWritten {
      assert Settle(v, Tens(6), 10) == CalculateChange(Tens(6), NoCoins, 10);
    } else {
      assert Settle(v, Tens(6), 10) == MakeChange(Tens(6), 10);
    }
  }

  /** The vault of the second finding: one TWENTY_FIVE_CENTS and `n` TEN_CENTS. */
  function QuarterAndTens(n: int): Coins
  {
    map[TwentyFiveCents := 1, TenCents := n]
  }

  /** One quarter and `n` tens are worth 25 + 10n cents. */
  lemma QuarterAndTensValue(n: int)
    ensures Total(QuarterAndTens(n)) == 25 + 10 * n
  {
    var quarter: Coins := map[TwentyFiveCents := 1];
    TotalSingle(TwentyFiveCents, 1);
    assert QuarterAndTens(n) == quarter[TenCents := Get(quarter, TenCents) + n];
    TotalUpdate(quarter, TenCents, n);
  }

  /** Owing 15 with tens left, the source draws a ten (the quarter is worth too much). */
  lemma QuarterDrawTen(n: int, recorded: int)
    requires n >= 1
    ensures CalculateChange(QuarterAndTens(n), map[TenCents := recorded], 15)
         == CalculateChange(QuarterAndTens(n - 1), map[TenCents := n], 15)
  {
    TotalSingle(TenCents, recorded);
    PickSmallest(QuarterAndTens(n), 15, TenCents);
    QuarterDrawTenStep(n, recorded);
  }

  lemma QuarterDrawTenStep(n: int, recorded: int)
    requires 15 != Total(map[TenCents := recorded])
    requires Pick(QuarterAndTens(n), 15) == Some(TenCents)
    ensures CalculateChange(QuarterAndTens(n), map[TenCents := recorded], 15)
         == CalculateChange(QuarterAndTens(n - 1), map[TenCents := n], 15)
  {
    QuarterSlotUpdates(n, recorded);
    CalculateChangeStep(QuarterAndTens(n), map[TenCents := recorded], 15, TenCents, QuarterAndTens(n - 1), map[TenCents := n]);
  }

  /** Map bookkeeping of one ten drawn beside the quarter. */
  lemma QuarterSlotUpdates(n: int, recorded: int)
    ensures QuarterAndTens(n)[TenCents := Get(QuarterAndTens(n), TenCents) - 1] == QuarterAndTens(n - 1)
    ensures map[TenCents := recorded][TenCents := Get(QuarterAndTens(n), TenCents)] == map[TenCents := n]
    ensures NoCoins[TenCents := Get(QuarterAndTens(n), TenCents)] == map[TenCents := n]
  {
  }

  /** With the tens gone, nothing worth at most 15 cents is left: the source fails. */
  lemma QuarterOnlyShort(recorded: int)
    ensures CalculateChange(QuarterAndTens(0), map[TenCents := recorded], 15) == Short(QuarterAndTens(0))
  {
    TotalSingle(TenCents, recorded);
    assert forall d :: !Eligible(d, QuarterAndTens(0), 15);
  }

  /** Each drawn ten leads to the state whose outcome is already known. */
  lemma OneMoreQuarterTen(n: int, recorded: int)
    requires n >= 1
    requires CalculateChange(QuarterAndTens(n - 1), map[TenCents := n], 15) == Short(QuarterAndTens(0))
    ensures CalculateChange(QuarterAndTens(n), map[TenCents := recorded], 15) == Short(QuarterAndTens(0))
  {
    QuarterDrawTen(n, recorded);
  }

  /** Owing 15 cents from one quarter and `n` tens, the source draws every ten
      and then fails, whatever the breakdown recorded. */
  lemma {:induction false} QuarterTensShort(n: int, recorded: int)
    requires n >= 0
    ensures CalculateChange(QuarterAndTens(n), map[TenCents := recorded], 15) == Short(QuarterAndTens(0))
    decreases n
  {
    if n == 0 {
      QuarterOnlyShort(recorded);
    } else {
      QuarterTensShort(n - 1, n);
      OneMoreQuarterTen(n, recorded);
    }
  }

  /** The source's first draw towards 15 cents. */
  lemma FirstQuarterTen(n: int)
    requires n >= 1
    ensures CalculateChange(QuarterAndTens(n), NoCoins, 15) == CalculateChange(QuarterAndTens(n - 1), map[TenCents := n], 15)
  {
    TotalEmpty(NoCoins);
    PickSmallest(QuarterAndTens(n), 15, TenCents);
    QuarterSlotUpdates(n, 0);
    CalculateChangeStep(QuarterAndTens(n), NoCoins, 15, TenCents, QuarterAndTens(n - 1), map[TenCents := n]);
  }

  /** Owing 15 cents from one quarter and `n` tens, the source fails after
      taking every ten out of the vault and does not put them back. The
      corrected change-maker fails too (no 5 cents can be made) and leaves
      the vault as it found it. */
  lemma NoRollbackDrainsTens(n: int)
    requires n >= 1
    ensures CalculateChange(QuarterAndTens(n), NoCoins, 15) == Short(QuarterAndTens(0))
    ensures MakeChange(QuarterAndTens(n), 15) == Short(QuarterAndTens(n))
  {
    FirstQuarterTen(n);
    QuarterTensShort(n - 1, n);
    CorrectedQuarterShort(n);
  }

  /** The corrected change-maker draws one ten, cannot make the last 5 cents, and rolls back. */
  lemma CorrectedQuarterShort(n: int)
    requires n >= 1
    ensures MakeChange(QuarterAndTens(n), 15) == Short(QuarterAndTens(n))
  {
    PickSmallest(QuarterAndTens(n), 15, TenCents);
    QuarterSlotUpdates(n, 0);
    var rest := QuarterAndTens(n - 1);
    assert forall d :: !Eligible(d, rest, 5);
    assert DrawRemaining(QuarterAndTens(n), NoCoins, 15).Short?;
  }

  /** Paying CRISPS (50) with one quarter and four tens into an empty vault:
      15 cents are owed and cannot be made. The source fails with its vault
      short of the four tens, so handing the deposit back drives the vault's
      TEN_CENTS count to -4. The corrected machine fails with the deposit
      intact, and handing it back empties the vault again. */
  lemma NoRollbackNegativeVault()
    ensures var r := BuyItem(AsWritten, Init(map[Crisps := 1], NoCoins), Crisps, QuarterAndTens(4));
      && r == Step(Err(InsufficientChange), Machine(map[Crisps := 1], QuarterAndTens(0), QuarterAndTens(4), Some(Crisps)))
      && Get(ReturnCoins(r.machine).machine.vault, TenCents) == -4
    ensures var r := BuyItem(Intended, Init(map[Crisps := 1], NoCoins), Crisps, QuarterAndTens(4));
      && r == Step(Err(InsufficientChange), Machine(map[Crisps := 1], QuarterAndTens(4), QuarterAndTens(4), Some(Crisps)))
      && forall d :: Get(ReturnCoins(r.machine).machine.vault, d) == 0
  {
    var deposited := Machine(map[Crisps := 1], QuarterAndTens(4), QuarterAndTens(4), Some(Crisps));
    FreshDeposit(map[Crisps := 1], QuarterAndTens(4), Crisps);
    QuarterAndTensValue(4);
    NoRollbackDrainsTens(4);
    assert Settle(AsWritten, QuarterAndTens(4), 15) == Short(QuarterAndTens(0));
    PurchaseShort(AsWritten, deposited, Crisps, QuarterAndTens(0));
    PurchaseShort(Intended, deposited, Crisps, QuarterAndTens(4));
  }

  /** A vault or breakdown holding `a` fifties and `b` dollars. */
  function FiftiesAndDollars(a: int, b: int): Coins
  {
    map[FiftyCents := a, OneDollar := b]
  }

  lemma FiftiesAndDollarsValue(a: int, b: int)
    ensures Total(FiftiesAndDollars(a, b)) == 50 * a + 100 * b
  {
    var fifties: Coins := map[FiftyCents := a];
    TotalSingle(FiftyCents, a);
    assert FiftiesAndDollars(a, b) == fifties[OneDollar := Get(fifties, OneDollar) + b];
    TotalUpdate(fifties, OneDollar, b);
  }

  /** The coins paid for each COCA_COLA: one FIFTY_CENTS and one ONE_DOLLAR. */
  const FiftyAndDollar: Coins := FiftiesAndDollars(1, 1)

  /** Stock of the purchase scenarios: two COCA_COLA and one CRISPS. */
  const Stocked: map<ItemType, int> := map[CocaCola := 2, Crisps := 1]

  /** The machine after the first COCA_COLA sale, under either variant. */
  function AfterFirstCola(v: Variant): Machine
  {
    match v
    case AsWritten => Machine(map[CocaCola := 1, Crisps := 1], FiftyAndDollar, FiftyAndDollar, Some(CocaCola))
    case Intended => Machine(map[CocaCola := 1, Crisps := 1], FiftyAndDollar, NoCoins, None)
  }

  /** The first exact payment for a COCA_COLA sells it with no change. */
  lemma FirstCola(v: Variant)
    ensures BuyItem(v, Init(Stocked, NoCoins), CocaCola, FiftyAndDollar) == Step(Ok(NoCoins), AfterFirstCola(v))
  {
    var deposited := Machine(Stocked, FiftyAndDollar, FiftyAndDollar, Some(CocaCola));
    FreshDeposit(Stocked, FiftyAndDollar, CocaCola);
    FiftiesAndDollarsValue(1, 1);
    assert Settle(v, FiftyAndDollar, 0) == Paid(NoCoins, FiftyAndDollar);
    PurchasePaid(v, deposited, CocaCola, NoCoins, FiftyAndDollar);
    FirstColaSold(v);
  }

  /** The sale of the first COCA_COLA leaves one COCA_COLA in stock. */
  lemma FirstColaSold(v: Variant)
    ensures Sold(v, Machine(Stocked, FiftyAndDollar, FiftyAndDollar, Some(CocaCola)), CocaCola, FiftyAndDollar)
         == AfterFirstCola(v)
  {
    assert Release(Stocked, CocaCola) == map[CocaCola := 1, Crisps := 1];
  }

  /** First draw for 150 cents: the smallest eligible coin is a fifty. */
  lemma SecondColaDraw1()
    ensures CalculateChange(FiftiesAndDollars(2, 2), NoCoins, 150)
         == CalculateChange(FiftiesAndDollars(1, 2), map[FiftyCents := 2], 150)
  {
    TotalEmpty(NoCoins);
    PickSmallest(FiftiesAndDollars(2, 2), 150, FiftyCents);
    CalculateChangeStep(FiftiesAndDollars(2, 2), NoCoins, 150, FiftyCents, FiftiesAndDollars(1, 2), map[FiftyCents := 2]);
  }

  /** Second draw: the copied count of 2 is worth 100, so another fifty. */
  lemma SecondColaDraw2()
    ensures CalculateChange(FiftiesAndDollars(1, 2), map[FiftyCents := 2], 150)
         == CalculateChange(FiftiesAndDollars(0, 2), map[FiftyCents := 1], 150)
  {
    TotalSingle(FiftyCents, 2);
    PickSmallest(FiftiesAndDollars(1, 2), 150, FiftyCents);
    CalculateChangeStep(FiftiesAndDollars(1, 2), map[FiftyCents := 2], 150, FiftyCents, FiftiesAndDollars(0, 2), map[FiftyCents := 1]);
  }

  /** Third draw: the fifties are gone, so a dollar. */
  lemma SecondColaDraw3()
    ensures CalculateChange(FiftiesAndDollars(0, 2), map[FiftyCents := 1], 150)
         == CalculateChange(FiftiesAndDollars(0, 1), FiftiesAndDollars(1, 2), 150)
  {
    TotalSingle(FiftyCents, 1);
    PickSmallest(FiftiesAndDollars(0, 2), 150, OneDollar);
    CalculateChangeStep(FiftiesAndDollars(0, 2), map[FiftyCents := 1], 150, OneDollar, FiftiesAndDollars(0, 1), FiftiesAndDollars(1, 2));
  }

  /** Fourth draw: 250 recorded, still not 150, so the last dollar. */
  lemma SecondColaDraw4()
    ensures CalculateChange(FiftiesAndDollars(0, 1), FiftiesAndDollars(1, 2), 150)
         == CalculateChange(FiftiesAndDollars(0, 0), FiftiesAndDollars(1, 1), 150)
  {
    FiftiesAndDollarsValue(1, 2);
    PickSmallest(FiftiesAndDollars(0, 1), 150, OneDollar);
    CalculateChangeStep(FiftiesAndDollars(0, 1), FiftiesAndDollars(1, 2), 150, OneDollar, FiftiesAndDollars(0, 0), FiftiesAndDollars(1, 1));
  }

  /** The source's change for 150 cents from two fifties and two dollars:
      both fifties are drawn, then both dollars, and the copied counts settle
      on one of each, worth exactly 150. */
  lemma ChangeForSecondCola()
    ensures CalculateChange(FiftiesAndDollars(2, 2), NoCoins, 150)
         == Paid(FiftiesAndDollars(1, 1), FiftiesAndDollars(0, 0))
  {
    SecondColaDraw1();
    SecondColaDraw2();
    SecondColaDraw3();
    SecondColaDraw4();
    FiftiesAndDollarsValue(1, 1);
  }

  /** The machine the second COCA_COLA purchase settles, under either variant. */
  lemma SecondColaDeposit(v: Variant)
    ensures LoadCoins(AfterFirstCola(v), FiftyAndDollar).(pending := Some(CocaCola))
         == Machine(map[CocaCola := 1, Crisps := 1], FiftiesAndDollars(2, 2),
                    if v == AsWritten then FiftiesAndDollars(2, 2) else FiftyAndDollar, Some(CocaCola))
  {
    var m := AfterFirstCola(v);
    DoubleFiftyAndDollar();
    assert Merge(m.vault, FiftyAndDollar) == FiftiesAndDollars(2, 2);
    if v == AsWritten {
      assert Merge(m.transaction, FiftyAndDollar) == FiftiesAndDollars(2, 2);
    } else {
      MergeIntoEmpty(FiftyAndDollar);
      assert Merge(m.transaction, FiftyAndDollar) == FiftyAndDollar;
    }
  }

  /** Two payments of a fifty and a dollar make two of each. */
  lemma DoubleFiftyAndDollar()
    ensures Merge(FiftyAndDollar, FiftyAndDollar) == FiftiesAndDollars(2, 2)
  {
  }

  /** The source's settlement of the second purchase: 150 cents owed. */
  lemma SecondColaSettle()
    ensures Settle(AsWritten, FiftiesAndDollars(2, 2), 150) == Paid(FiftiesAndDollars(1, 1), FiftiesAndDollars(0, 0))
  {
    ChangeForSecondCola();
    assert Settle(AsWritten, FiftiesAndDollars(2, 2), 150) == CalculateChange(FiftiesAndDollars(2, 2), NoCoins, 150);
  }

  /** Buying a second COCA_COLA with the same exact coins (the source's test
      sequence). The source never cleared the first payment, so it counts 300
      cents paid and hands back 150 in change: the second drink is free. */
  lemma SecondColaRefunded()
    ensures var r := BuyItem(AsWritten, AfterFirstCola(AsWritten), CocaCola, FiftyAndDollar);
      && r.result == Ok(FiftiesAndDollars(1, 1))
      && Total(r.result.value) == Price(CocaCola)
      && Stock(r.machine, CocaCola) == 0
  {
    var deposited := Machine(map[CocaCola := 1, Crisps := 1], FiftiesAndDollars(2, 2), FiftiesAndDollars(2, 2), Some(CocaCola));
    SecondColaDeposit(AsWritten);
    FiftiesAndDollarsValue(2, 2);
    SecondColaSettle();
    PurchasePaid(AsWritten, deposited, CocaCola, FiftiesAndDollars(1, 1), FiftiesAndDollars(0, 0));
  }

  /** The corrected machine starts the second purchase from a fresh
      transaction, sells it with no change, and keeps both payments. */
  lemma SecondColaCharged()
    ensures var r := BuyItem(Intended, AfterFirstCola(Intended), CocaCola, FiftyAndDollar);
      && r.result == Ok(NoCoins)
      && Stock(r.machine, CocaCola) == 0
      && Total(r.machine.vault) == 2 * Price(CocaCola)
  {
    var deposited := Machine(map[CocaCola := 1, Crisps := 1], FiftiesAndDollars(2, 2), FiftyAndDollar, Some(CocaCola));
    SecondColaDeposit(Intended);
    FiftiesAndDollarsValue(2, 2);
    FiftiesAndDollarsValue(1, 1);
    assert Settle(Intended, FiftiesAndDollars(2, 2), 0) == Paid(NoCoins, FiftiesAndDollars(2, 2));
    PurchasePaid(Intended, deposited, CocaCola, NoCoins, FiftiesAndDollars(2, 2));
  }
}

=== FILE: items.dfy ===
/** The catalogue: the item kinds the machine sells and their fixed prices. */
module Items {

  datatype ItemType = Crisps | CocaCola | MarsBar

  /** Price in cents (the enum's final `price` field). */
  function Price(i: ItemType): (p: int)
    ensures p > 0
    ensures p % 25 == 0
  {
    match i
    case Crisps => 50
    case CocaCola => 150
    case MarsBar => 75
  }

  /** The item kinds in declaration order (the enum's `values()`). */
  const Kinds: seq<ItemType> := [Crisps, CocaCola, MarsBar]

  /** There are exactly three item kinds, each declared once. */
  lemma KindsListsEachOnce(i: ItemType)
    ensures |Kinds| == 3
    ensures multiset(Kinds)[i] == 1
  {
  }

  /** The catalogue prices: CRISPS 50, COCA_COLA 150, MARS_BAR 75 cents. */
  lemma CatalogPrices()
    ensures Price(Crisps) == 50 && Price(CocaCola) == 150 && Price(MarsBar) == 75
  {
  }
}

=== FILE: ledger.dfy ===
/** Count ledgers: maps from a key (an item kind or a denomination) to a count,
    where an absent key stands for a count of 0. These are the source's
    `Map<ItemType, Integer>` and `Map<Denomination, Integer>` fields. */
module Ledger {

  /** The count recorded for `k`, 0 when absent (`getOrDefault(k, 0)`). */
  function Get<K(!new)>(m: map<K, int>, k: K): int
  {
    if k in m then m[k] else 0
  }

  /** Every recorded count is at least 0. */
  ghost predicate NonNegative<K(!new)>(m: map<K, int>)
  {
    forall k :: k in m ==> m[k] >= 0
  }

  /** Adds each delta to its key's count, an absent key starting from 0
      (`putIfAbsent(k, 0)` then `put(k, get(k) + delta)` for every entry of
      `delta`). Keys outside `delta` keep their entry untouched. */
  function Merge<K(!new)>(m: map<K, int>, delta: map<K, int>): (r: map<K, int>)
    ensures r.Keys == m.Keys + delta.Keys
    ensures forall k :: Get(r, k) == Get(m, k) + Get(delta, k)
    ensures forall k :: k in m && k !in delta ==> r[k] == m[k]
    ensures NonNegative(m) && NonNegative(delta) ==> NonNegative(r)
  {
    map k | k in m.Keys + delta.Keys :: Get(m, k) + Get(delta, k)
  }

  /** Subtracts each delta from its key's count (`put(k, get(k) - delta)` for
      every entry of `delta`). The source reads `get(k)` without a default, so
      every key of `delta` must already be recorded. */
  function Withdraw<K(!new)>(m: map<K, int>, delta: map<K, int>): (r: map<K, int>)
    requires delta.Keys <= m.Keys
    ensures r.Keys == m.Keys
    ensures forall k :: Get(r, k) == Get(m, k) - Get(delta, k)
    ensures forall k :: k in m && k !in delta ==> r[k] == m[k]
  {
    map k | k in m :: m[k] - Get(delta, k)
  }

  /** Withdrawing what was just merged in restores every count. */
  lemma WithdrawUndoesMerge<K(!new)>(m: map<K, int>, delta: map<K, int>)
    ensures delta.Keys <= Merge(m, delta).Keys
    ensures forall k :: Get(Withdraw(Merge(m, delta), delta), k) == Get(m, k)
  {
  }

  /** Merging into an empty ledger yields the merged ledger itself. */
  lemma MergeIntoEmpty<K(!new)>(delta: map<K, int>)
    ensures Merge(map[], delta) == delta
  {
  }
}

=== FILE: money.dfy ===
/** Sums of money held in a coin ledger (`calculateTotal`), and the number of
    coins in it, which bounds how long the change-maker can run. */
module Money {
  import opened Denominations
  import opened Ledger

  /** A count per denomination: the vault, a transaction's deposit, or a change breakdown. */
  type Coins = map<Denomination, int>

  /** The empty ledger: no coins at all. */
  const NoCoins: Coins := map[]

  /** Value in cents of the coins of `m` whose denominations appear in `ds`. */
  function SumOver(ds: seq<Denomination>, m: Coins): int
  {
    if |ds| == 0 then 0 else Cents(ds[0]) * Get(m, ds[0]) + SumOver(ds[1..], m)
  }

  /** The source's own sum: face value × count over the map's entries, taken
      in whatever order the map yields them. */
  ghost function EntrySum(m: Coins): int
    decreases |m|
  {
    if |m| == 0 then 0
    else
      var k :| k in m;
      assert (m - {k}).Keys == m.Keys - {k};
      Cents(k) * m[k] + EntrySum(m - {k})
  }

  /** Value in cents of a coin ledger (`calculateTotal`): face value × count
      summed over the six denominations, an absent one counting 0.
      `TotalIsEntrySum` shows this is the source's sum over the map's entries. */
  function Total(m: Coins): (t: int)
    ensures NonNegative(m) ==> t >= 0
  {
    SumOverNonNegative(Values, m);
    SumOver(Values, m)
  }

  /** Summing over the denominations and summing over the map's entries, in
      any order, agree. */
  lemma {:induction false} TotalIsEntrySum(m: Coins)
    ensures Total(m) == EntrySum(m)
    decreases |m|
  {
    if |m| == 0 {
      EmptyLedgerWorthless(m);
    } else {
      EntrySumPeel(m);
      var k :| k in m && EntrySum(m) == Cents(k) * m[k] + EntrySum(m - {k});
      RemoveShrinks(m, k);
      TotalIsEntrySum(m - {k});
      EntrySumStep(m, k);
    }
  }

  /** One step of the induction: the entry peeled off adds the same value to both sums. */
  lemma EntrySumStep(m: Coins, k: Denomination)
    requires k in m && EntrySum(m) == Cents(k) * m[k] + EntrySum(m - {k})
    requires Total(m - {k}) == EntrySum(m - {k})
    ensures Total(m) == EntrySum(m)
  {
    TotalRemove(m, k);
  }

  lemma EmptyLedgerWorthless(m: Coins)
    requires |m| == 0
    ensures Total(m) == 0
  {
    assert m == map[];
    SumOverEmpty(Values, m);
  }

  /** Some entry is the one `EntrySum` peels off first. */
  lemma EntrySumPeel(m: Coins)
    requires |m| > 0
    ensures exists k :: k in m && EntrySum(m) == Cents(k) * m[k] + EntrySum(m - {k})
  {
  }

  lemma RemoveShrinks(m: Coins, k: Denomination)
    requires k in m
    ensures |m - {k}| < |m|
  {
    assert (m - {k}).Keys == m.Keys - {k};
  }

  /** Taking one entry out of a ledger takes its value out of the sum. */
  lemma TotalRemove(m: Coins, k: Denomination)
    requires k in m
    ensures Total(m) == Cents(k) * m[k] + Total(m - {k})
  {
    var rest := m - {k};
    assert Get(rest, k) + m[k] == m[k];
    assert m == rest[k := Get(rest, k) + m[k]];
    ValuesAscending();
    SumOverUpdate(Values, rest, k, m[k]);
  }

  /** A ledger whose every count is 0 (the empty map among them) is worth nothing. */
  lemma TotalEmpty(m: Coins)
    requires forall d :: Get(m, d) == 0
    ensures Total(m) == 0
  {
    SumOverEmpty(Values, m);
  }

  /** Number of coins of `m` in the denominations `ds`, negative counts read as 0. */
  function CountOver(ds: seq<Denomination>, m: Coins): int
  {
    if |ds| == 0 then 0 else (if Get(m, ds[0]) > 0 then Get(m, ds[0]) else 0) + CountOver(ds[1..], m)
  }

  /** Number of coins held in a ledger (its positive counts summed). */
  function CoinCount(m: Coins): (n: nat)
  {
    CountOverNonNegative(Values, m);
    CountOver(Values, m)
  }

  lemma {:induction false} CountOverNonNegative(ds: seq<Denomination>, m: Coins)
    ensures CountOver(ds, m) >= 0
  {
    if |ds| > 0 {
      CountOverNonNegative(ds[1..], m);
    }
  }

  /** The sum is linear in the counts: summing two ledgers pointwise adds their values. */
  lemma {:induction false} SumOverMerge(ds: seq<Denomination>, a: Coins, b: Coins)
    ensures SumOver(ds, Merge(a, b)) == SumOver(ds, a) + SumOver(ds, b)
  {
    if |ds| > 0 {
      SumOverMerge(ds[1..], a, b);
      var c := Cents(ds[0]);
      assert c * Get(Merge(a, b), ds[0]) == c * Get(a, ds[0]) + c * Get(b, ds[0]) by {
        assert Get(Merge(a, b), ds[0]) == Get(a, ds[0]) + Get(b, ds[0]);
      }
    }
  }

  /** Depositing coins raises a ledger's value by exactly their value. */
  lemma TotalMerge(a: Coins, b: Coins)
    ensures Total(Merge(a, b)) == Total(a) + Total(b)
  {
    SumOverMerge(Values, a, b);
  }

  /** Two ledgers that agree on every count have the same sum over any denominations. */
  lemma {:induction false} SumOverAgree(ds: seq<Denomination>, a: Coins, b: Coins)
    requires forall d :: Get(a, d) == Get(b, d)
    ensures SumOver(ds, a) == SumOver(ds, b)
  {
    if |ds| > 0 {
      SumOverAgree(ds[1..], a, b);
    }
  }

  /** The value of a ledger depends only on its counts, not on which zero entries it records. */
  lemma TotalAgree(a: Coins, b: Coins)
    requires forall d :: Get(a, d) == Get(b, d)
    ensures Total(a) == Total(b)
  {
    SumOverAgree(Values, a, b);
  }

  /** Splitting a ledger's coins into two parts splits its value. */
  lemma TotalSplit(a: Coins, b: Coins, whole: Coins)
    requires forall d :: Get(a, d) + Get(b, d) == Get(whole, d)
    ensures Total(a) + Total(b) == Total(whole)
  {
    TotalMerge(a, b);
    TotalAgree(Merge(a, b), whole);
  }

  /** Withdrawing coins lowers a ledger's value by exactly their value. */
  lemma TotalWithdraw(a: Coins, b: Coins)
    requires b.Keys <= a.Keys
    ensures Total(Withdraw(a, b)) == Total(a) - Total(b)
  {
    var w := Withdraw(a, b);
    var back := Merge(w, b);
    TotalMerge(w, b);
    TotalAgree(back, a);
  }

  /** Changing one count by `k` changes the sum over a duplicate-free list
      containing that denomination by `k` coins of it. */
  lemma {:induction false} SumOverUpdate(ds: seq<Denomination>, m: Coins, d: Denomination, k: int)
    requires forall i, j :: 0 <= i < j < |ds| ==> ds[i] != ds[j]
    ensures SumOver(ds, m[d := Get(m, d) + k]) == SumOver(ds, m) + (if d in ds then Cents(d) * k else 0)
  {
    if |ds| > 0 {
      SumOverUpdate(ds[1..], m, d, k);
      if ds[0] == d {
        assert d !in ds[1..];
        var c := Cents(d);
        assert c * (Get(m, d) + k) == c * Get(m, d) + c * k;
      }
    }
  }

  /** Adding `k` coins of one denomination adds `k` times its face value. */
  lemma TotalUpdate(m: Coins, d: Denomination, k: int)
    ensures Total(m[d := Get(m, d) + k]) == Total(m) + Cents(d) * k
  {
    ValuesAscending();
    SumOverUpdate(Values, m, d, k);
  }

  /** A ledger holding `n` coins of one denomination is worth `n` times its face value. */
  lemma TotalSingle(d: Denomination, n: int)
    ensures Total(map[d := n]) == Cents(d) * n
  {
    var empty: Coins := map[];
    assert map[d := n] == empty[d := Get(empty, d) + n];
    TotalUpdate(empty, d, n);
  }

  /** Taking one coin from a slot that holds some removes exactly one coin. */
  lemma {:induction false} CountOverTakeOne(ds: seq<Denomination>, m: Coins, d: Denomination)
    requires forall i, j :: 0 <= i < j < |ds| ==> ds[i] != ds[j]
    requires Get(m, d) > 0
    ensures CountOver(ds, m[d := Get(m, d) - 1]) == CountOver(ds, m) - (if d in ds then 1 else 0)
  {
    if |ds| > 0 {
      CountOverTakeOne(ds[1..], m, d);
      if ds[0] == d {
        assert d !in ds[1..];
      }
    }
  }

  /** Each coin the change-maker draws lowers the vault's coin count by one. */
  lemma TakeOneCoin(m: Coins, d: Denomination)
    requires Get(m, d) > 0
    ensures CoinCount(m[d := Get(m, d) - 1]) == CoinCount(m) - 1
  {
    ValuesAscending();
    ValuesListsEachOnce(d);
    CountOverTakeOne(Values, m, d);
  }

  /** A ledger with no negative count has a value of at least 0. */
  lemma {:induction false} SumOverNonNegative(ds: seq<Denomination>, m: Coins)
    ensures NonNegative(m) ==> SumOver(ds, m) >= 0
  {
    if |ds| > 0 {
      SumOverNonNegative(ds[1..], m);
    }
  }

  /** A ledger whose every count is 0 is worth nothing. */
  lemma {:induction false} SumOverEmpty(ds: seq<Denomination>, m: Coins)
    ensures (forall d :: Get(m, d) == 0) ==> SumOver(ds, m) == 0
  {
    if |ds| > 0 {
      SumOverEmpty(ds[1..], m);
    }
  }
}

=== FILE: results.dfy ===
/** An optional value (Java's `Optional`) and a value-or-error result (the
    engine's checked exceptions). */
module Results {

  datatype Option<+T> = None | Some(value: T)

  datatype Result<+T, +E> = Ok(value: T) | Err(error: E)
}

=== FILE: scenarios.dfy ===
/** The source's unit-test sequences replayed on the model, under both
    completion variants unless a test depends on the variant. */
module Scenarios {
  import opened Results
  import opened Denominations
  import opened Items
  import opened Ledger
  import opened Money
  import opened Change
  import opened Engine
  import opened Findings

  /** A single ONE_DOLLAR coin. */
  const Dollar: Coins := map[OneDollar := 1]

  /** A fresh machine with the purchase tests' stock offers COCA_COLA and CRISPS. */
  lemma StockedOnOffer()
    ensures AvailableItems(Init(Stocked, NoCoins)) == {CocaCola, Crisps}
  {
    var r := AvailableItems(Init(Stocked, NoCoins));
    assert MarsBar !in r;
  }

  /** Loading one MARS_BAR puts a third kind on offer. */
  lemma LoadedItemOnOffer()
    ensures AvailableItems(LoadItems(Init(Stocked, NoCoins), map[MarsBar := 1])) == {CocaCola, Crisps, MarsBar}
  {
    var m := LoadItems(Init(Stocked, NoCoins), map[MarsBar := 1]);
    assert Stock(m, MarsBar) == 1 && Stock(m, CocaCola) == 2 && Stock(m, Crisps) == 1;
  }

  /** One ten for CRISPS is 40 cents short; the deposit stays in the machine. */
  lemma TenForCrisps(v: Variant)
    ensures BuyItem(v, Init(Stocked, NoCoins), Crisps, Tens(1))
         == Step(Err(InsufficientFunds(40)), Machine(Stocked, Tens(1), Tens(1), Some(Crisps)))
  {
    FreshDeposit(Stocked, Tens(1), Crisps);
    TensValue(1);
  }

  /** After the shortfall, four more tens make the price exactly: the sale
      completes with no change. */
  lemma ShortfallThenTopUp(v: Variant)
    ensures var r := BuyItem(v, Init(Stocked, NoCoins), Crisps, Tens(1));
      && r.result == Err(InsufficientFunds(40))
      && AddCoins(v, r.machine, Tens(4)).result == Ok(NoCoins)
  {
    TenForCrisps(v);
    var short := Machine(Stocked, Tens(1), Tens(1), Some(Crisps));
    var topped := Machine(Stocked, Tens(5), Tens(5), Some(Crisps));
    assert Merge(Tens(1), Tens(4)) == Tens(5);
    assert LoadCoins(short, Tens(4)) == topped;
    TensValue(5);
    assert Settle(v, Tens(5), 0) == Paid(NoCoins, Tens(5));
    PurchasePaid(v, topped, Crisps, NoCoins, Tens(5));
  }

  /** After the shortfall, `returnCoins` hands the ten back and the vault is empty again. */
  lemma ShortfallThenReturn(v: Variant)
    ensures var r := BuyItem(v, Init(Stocked, NoCoins), Crisps, Tens(1));
      && r.result == Err(InsufficientFunds(40))
      && ReturnCoins(r.machine) == Step(Ok(Tens(1)), Machine(Stocked, Tens(0), NoCoins, None))
  {
    TenForCrisps(v);
    assert Withdraw(Tens(1), Tens(1)) == Tens(0);
  }

  /** Five tens for CRISPS pay the price exactly: the sale completes with no change. */
  lemma FiveTensForCrisps(v: Variant)
    ensures BuyItem(v, Init(Stocked, NoCoins), Crisps, Tens(5))
         == Step(Ok(NoCoins), Sold(v, Machine(Stocked, Tens(5), Tens(5), Some(Crisps)), Crisps, Tens(5)))
  {
    var deposited := Machine(Stocked, Tens(5), Tens(5), Some(Crisps));
    FreshDeposit(Stocked, Tens(5), Crisps);
    TensValue(5);
    assert Settle(v, Tens(5), 0) == Paid(NoCoins, Tens(5));
    PurchasePaid(v, deposited, Crisps, NoCoins, Tens(5));
  }

  /** The last CRISPS paid with five tens: no change, and CRISPS is no longer on offer. */
  lemma ExactPaymentForCrisps(v: Variant)
    ensures var r := BuyItem(v, Init(Stocked, NoCoins), Crisps, Tens(5));
      && r.result == Ok(NoCoins)
      && AvailableItems(r.machine) == {CocaCola}
  {
    FiveTensForCrisps(v);
    var m := Sold(v, Machine(Stocked, Tens(5), Tens(5), Some(Crisps)), Crisps, Tens(5));
    assert Stock(m, Crisps) == 0 && Stock(m, CocaCola) == 2 && Stock(m, MarsBar) == 0;
    var r := AvailableItems(m);
    forall i
      ensures i in r <==> i == CocaCola
    {
      assert i in r <==> Stock(m, i) > 0;
    }
  }

  /** Nothing in the vault is worth at most 50 cents except in fifties. */
  lemma DollarOnlyShort(v: Variant)
    ensures Settle(v, Dollar, 50) == Short(Dollar)
  {
    TotalEmpty(NoCoins);
    assert forall d :: !Eligible(d, Dollar, 50);
    assert CalculateChange(Dollar, NoCoins, 50) == Short(Dollar);
    assert DrawRemaining(Dollar, NoCoins, 50) == Short(Dollar);
  }

  /** A dollar for CRISPS into an empty vault: 50 cents are owed and cannot
      be made from the dollar itself, so the purchase fails with the dollar
      deposited. */
  lemma DollarForCrisps(v: Variant)
    ensures BuyItem(v, Init(Stocked, NoCoins), Crisps, Dollar)
         == Step(Err(InsufficientChange), Machine(Stocked, Dollar, Dollar, Some(Crisps)))
  {
    var deposited := Machine(Stocked, Dollar, Dollar, Some(Crisps));
    FreshDeposit(Stocked, Dollar, Crisps);
    TotalSingle(OneDollar, 1);
    DollarOnlyShort(v);
    PurchaseShort(v, deposited, Crisps, Dollar);
  }

  /** The vault after the dollar is handed back and a fifty is loaded as change. */
  const Reloaded: Coins := map[OneDollar := 0, FiftyCents := 1]

  /** The reloaded vault once the second dollar is deposited. */
  const Topped: Coins := map[OneDollar := 1, FiftyCents := 1]

  /** That vault once the fifty is paid out. */
  const PaidOut: Coins := map[OneDollar := 1, FiftyCents := 0]

  /** Handing the deposited dollar back leaves an empty dollar slot. */
  lemma DollarReturned()
    ensures ReturnCoins(Machine(Stocked, Dollar, Dollar, Some(Crisps)))
         == Step(Ok(Dollar), Machine(Stocked, map[OneDollar := 0], NoCoins, None))
  {
    assert Withdraw(Dollar, Dollar) == map[OneDollar := 0];
  }

  /** Loading a fifty as change into the emptied vault. */
  lemma FiftyLoaded()
    ensures LoadChange(Machine(Stocked, map[OneDollar := 0], NoCoins, None), map[FiftyCents := 1])
         == Machine(Stocked, Reloaded, NoCoins, None)
  {
    assert Merge(map[OneDollar := 0], map[FiftyCents := 1]) == Reloaded;
  }

  /** The failed dollar purchase is cancelled and the operator loads a fifty. */
  lemma ReturnThenReload(v: Variant)
    ensures var r := BuyItem(v, Init(Stocked, NoCoins), Crisps, Dollar);
      LoadChange(ReturnCoins(r.machine).machine, map[FiftyCents := 1]) == Machine(Stocked, Reloaded, NoCoins, None)
  {
    DollarForCrisps(v);
    DollarReturned();
    FiftyLoaded();
  }

  /** Both change-makers start on the fifty: the only coin worth at most 50 cents. */
  lemma FiftyPicked()
    ensures Pick(Topped, 50) == Some(FiftyCents)
  {
    PickSmallest(Topped, 50, FiftyCents);
  }

  /** The source's change-maker pays 50 cents from a dollar and a fifty with the fifty. */
  lemma FiftyCalculated()
    ensures CalculateChange(Topped, NoCoins, 50) == Paid(map[FiftyCents := 1], PaidOut)
  {
    TotalEmpty(NoCoins);
    TotalSingle(FiftyCents, 1);
    FiftyPicked();
    assert Topped[FiftyCents := Get(Topped, FiftyCents) - 1] == PaidOut;
    assert NoCoins[FiftyCents := Get(Topped, FiftyCents)] == map[FiftyCents := 1];
    CalculateChangeStep(Topped, NoCoins, 50, FiftyCents, PaidOut, map[FiftyCents := 1]);
  }

  /** The corrected change-maker pays the same 50 cents the same way. */
  lemma FiftyDrawn()
    ensures DrawRemaining(Topped, NoCoins, 50) == Paid(map[FiftyCents := 1], PaidOut)
  {
    FiftyPicked();
    assert Topped[FiftyCents := Get(Topped, FiftyCents) - 1] == PaidOut;
    assert NoCoins[FiftyCents := Get(NoCoins, FiftyCents) + 1] == map[FiftyCents := 1];
    assert DrawRemaining(Topped, NoCoins, 50) == DrawRemaining(PaidOut, map[FiftyCents := 1], 0);
  }

  /** Either change-maker pays 50 cents from a dollar and a fifty with the fifty. */
  lemma FiftyFromReloaded(v: Variant)
    ensures Settle(v, Topped, 50) == Paid(map[FiftyCents := 1], PaidOut)
  {
    if v == AsWritten {
      FiftyCalculated();
    } else {
      FiftyDrawn();
      assert MakeChange(Topped, 50) == DrawRemaining(Topped, NoCoins, 50);
    }
  }

  /** The second dollar joins the reloaded vault and opens a new transaction. */
  lemma ReloadedDeposit()
    ensures LoadCoins(Machine(Stocked, Reloaded, NoCoins, None), Dollar).(pending := Some(Crisps))
         == Machine(Stocked, Topped, Dollar, Some(Crisps))
  {
    assert Merge(Reloaded, Dollar) == Topped;
    MergeIntoEmpty(Dollar);
  }

  lemma ToppedValue()
    ensures Total(Topped) == 150
  {
    var fifty: Coins := map[FiftyCents := 1];
    TotalSingle(FiftyCents, 1);
    assert Topped == fifty[OneDollar := Get(fifty, OneDollar) + 1];
    TotalUpdate(fifty, OneDollar, 1);
  }

  /** With a fifty loaded, the second dollar for CRISPS is changed with that fifty. */
  lemma ChangeAfterReload(v: Variant)
    ensures var r := BuyItem(v, Init(Stocked, NoCoins), Crisps, Dollar);
      var reloaded := LoadChange(ReturnCoins(r.machine).machine, map[FiftyCents := 1]);
      BuyItem(v, reloaded, Crisps, Dollar).result == Ok(map[FiftyCents := 1])
  {
    ReturnThenReload(v);
    ReloadedDeposit();
    TotalSingle(OneDollar, 1);
    ToppedValue();
    FiftyFromReloaded(v);
    PurchasePaid(v, Machine(Stocked, Topped, Dollar, Some(Crisps)), Crisps, map[FiftyCents := 1], PaidOut);
  }

  /** After the first COCA_COLA both kinds are still on offer. */
  lemma FirstColaOnOffer(v: Variant)
    ensures AvailableItems(AfterFirstCola(v)) == {Crisps, CocaCola}
  {
    var r := AvailableItems(AfterFirstCola(v));
    assert MarsBar !in r;
  }

  /** A machine whose only stock is one CRISPS offers just CRISPS. */
  lemma OnlyCrispsOnOffer(m: Machine)
    requires Stock(m, Crisps) == 1 && Stock(m, CocaCola) == 0 && Stock(m, MarsBar) == 0
    ensures AvailableItems(m) == {Crisps}
  {
    var r := AvailableItems(m);
    forall i
      ensures i in r <==> i == Crisps
    {
      assert i in r <==> Stock(m, i) > 0;
    }
  }

  /** After the second COCA_COLA only CRISPS is on offer. */
  lemma SecondColaOnOffer(v: Variant)
    ensures var r := BuyItem(v, AfterFirstCola(v), CocaCola, FiftyAndDollar);
      && r.result.Ok?
      && AvailableItems(r.machine) == {Crisps}
  {
    var m := AfterFirstCola(v);
    assert Stock(m, Crisps) == 1 && Stock(m, MarsBar) == 0;
    if v == AsWritten {
      SecondColaRefunded();
    } else {
      SecondColaCharged();
    }
    var r := BuyItem(v, m, CocaCola, FiftyAndDollar);
    assert Stock(r.machine, Crisps) == Stock(m, Crisps);
    assert Stock(r.machine, MarsBar) == Stock(m, MarsBar);
    OnlyCrispsOnOffer(r.machine);
  }

  /** Both COCA_COLA bought with exact coins: after the first, both kinds are
      still on offer; after the second, only CRISPS. */
  lemma BuyAllColas(v: Variant)
    ensures var r := BuyItem(v, Init(Stocked, NoCoins), CocaCola, FiftyAndDollar);
      && AvailableItems(r.machine) == {Crisps, CocaCola}
      && BuyItem(v, r.machine, CocaCola, FiftyAndDollar).result.Ok?
      && AvailableItems(BuyItem(v, r.machine, CocaCola, FiftyAndDollar).machine) == {Crisps}
  {
    FirstCola(v);
    FirstColaOnOffer(v);
    SecondColaOnOffer(v);
  }
}
